=== FILE: README.md ===
# Weather app core, modelled in Dafny

This project models the logic of a small Next.js weather app. The app has four parts:

- **the daily aggregator** `getDailyForecasts`, behind the forecast panel. It folds the provider's
  3-hourly list into at most five day summaries. `ForecastDisplay` then shows the first as
  "today" and the rest as upcoming days.
- **the forecast gateway** `GET /api/forecast`. It checks the server key and resolves
  coordinates, either from the query or by a one-hit city lookup. It fetches the 5-day/3-hour
  forecast, then relays it with a cache header or turns a failure into a JSON error.
- **the suggestion gateway** `GET /api/geocoding`. It checks the key and answers short queries
  with `[]`. It asks the provider for up to ten places and relays them, or reports the failure.
- **the search controller** `WeatherSearch`. It has:
  - a debounce helper, which is a one-slot timer;
  - the suggestion fetch with normalisation and filtering;
  - the `handleSearch` transitions over `{city, data, loading, error, suggestions}`;
  - the suggestion-click label.

Every part is a pure function over abstract inputs. The provider's answers, the server key and
the viewer's time-zone offset are parameters. JavaScript's number-to-string and `Number()`
conversions are function parameters too: `show` and `toNumber`.

| file | module | contents |
|---|---|---|
| `js.dfy` | `Js` | JSON values, `undefined` (`Option`), truthiness, `??`, `String()`, thrown values |
| `http.dfy` | `Http` | statuses and `ok`, provider replies, gateway responses, outbound provider calls |
| `daily.dfy` | `Daily` | the aggregator, its reference definitions over the list, and the proofs relating them |
| `forecast_route.dfy` | `ForecastRoute` | the forecast gateway |
| `geocoding_route.dfy` | `GeocodingRoute` | the suggestion gateway |
| `debounce.dfy` | `Debounce` | the debounce state machine and its timing properties |
| `weather_search.dfy` | `WeatherSearch` | `trim`, suggestion normalisation, and submit/complete/click |
| `pipeline.dfy` | `Pipeline` | properties of the client and the gateways put together |

How the model treats the app's behaviour:

- **A throw is a result, not a crash.**
  - Where the aggregator would throw a `TypeError`, `DailyForecasts` returns `None`. That
    happens when it reads `weather[0]` of an item with no weather entries.
  - A thrown gateway failure is a `Rejected` reply carrying the thrown value.
- **Day key and hour come from different clocks.**
  - An item's day is its UTC date, `dt / 86400` rounded down, as `toISOString` gives it.
  - The midday window uses `getHours()`, the viewer's local hour. The model computes it with an
    explicit offset parameter.
- **Coordinates are strings throughout.** A gateway query parameter counts as absent when it is
  missing or empty. That is JavaScript's `!x`.

## Model

| member | source | states |
|---|---|---|
| Js.OrElse | src/app/api/forecast/route.ts:54 | `x ?? d` is the value when it is neither null nor undefined, and the fallback exactly when it is null or undefined |
| Js.JsonText | src/app/api/forecast/route.ts:39-40 | `String(v)` throws exactly for an object with its own `toString` key, or an array holding one (`Unprintable`); a string is itself, and any other object is "[object Object]" |
| Js.Text | src/components/WeatherSearch.tsx:151 | a template-literal hole can be printed exactly when the value is `undefined` or printable; `undefined` prints as "undefined" |
| Daily.MinOf | src/components/ForecastDisplay.tsx:38 | `Math.min` over the pooled temperatures is one of them and bounds all of them from below |
| Daily.MaxOf | src/components/ForecastDisplay.tsx:39 | `Math.max` is one of the values and bounds all of them from above |
| Daily.DaySpan | src/components/ForecastDisplay.tsx:14-15 | an item's date key is the UTC day whose 86400-second span holds `dt` (the date part of `toISOString`) |
| Daily.HourSpan | src/components/ForecastDisplay.tsx:22 | `getHours()` is the hour 0..23 whose 3600-second span, within the local day, holds `dt` shifted by the viewer's offset; `IsMidday` is hours 10 to 14 inclusive |
| Daily.Collect | src/components/ForecastDisplay.tsx:13-28 | the scan makes no buckets exactly for an empty list, at most one per item, and each bucket holds both temperatures of at least one item |
| Daily.Summarize | src/components/ForecastDisplay.tsx:31-42 | a day's summary keeps its date, and its min and max are pooled values with min ≤ max |
| Daily.SummarizeAll | src/components/ForecastDisplay.tsx:30-43 | the `map` succeeds exactly when every day's summary does, with one summary per bucket, in bucket order |
| Daily.DailyForecasts | src/components/ForecastDisplay.tsx:10-45 | an empty list gives `[]` without reading `list[0]`; the result has at most 5 days, none only for an empty list, each with min ≤ max; when it throws is stated over every date by `DailyFailure` |
| Daily.Display | src/components/ForecastDisplay.tsx:62-63 | "today" is element 0 and the upcoming days are the rest (at most 4); no today exactly for an empty list; it fails exactly when the aggregation throws |
| Daily.PoolMembers | src/components/ForecastDisplay.tsx:20 | a day's pooled temperatures are exactly the `temp_min` and `temp_max` of that day's items |
| Daily.CollectIsCollected | src/components/ForecastDisplay.tsx:13-28 | the fold yields one bucket per date present, in first-occurrence order, each holding that date's pooled temperatures and the weather of its first midday item |
| Daily.ResultBuckets | src/components/ForecastDisplay.tsx:30-44 | the result has min(5, bucket count) days, and the k-th summarises the k-th bucket |
| Daily.BucketCount | src/components/ForecastDisplay.tsx:14-18 | there are exactly as many buckets as distinct UTC dates in the list |
| Daily.BucketDates | src/components/ForecastDisplay.tsx:14-18 | the buckets' dates are the list's dates, without repeats, in first-occurrence order |
| Daily.DailyDates | src/components/ForecastDisplay.tsx:30-44 | the result has min(5, distinct dates) days; each is a date of the list, in first-occurrence order (so no duplicates); a date left out comes after every date shown |
| Daily.BucketTemperatures | src/components/ForecastDisplay.tsx:38-39 | a bucket's min and max bound every temperature of its date and are attained by one of them |
| Daily.DailyTemperatures | src/components/ForecastDisplay.tsx:20-39 | each day's `minTemp`/`maxTemp` bound every `temp_min`/`temp_max` of that date, are each attained, and min ≤ max |
| Daily.DailyConditions | src/components/ForecastDisplay.tsx:22-41 | icon and description come from the day's first item with local hour 10..14, later ones never replace it; with no such item, or an empty string, they come from `list[0]`, the first item of the whole list |
| Daily.BucketThrows | src/components/ForecastDisplay.tsx:22-41 | a bucket fails in the scan or in its summary exactly when its date throws (`DayThrows`) |
| Daily.DailyFailure | src/components/ForecastDisplay.tsx:13-44 | the aggregation throws exactly when some date of the list throws, including dates past the fifth: its first midday item has no weather entry, or it falls back to `list[0]`, which has none |
| Daily.NoFailureWithWeather | src/components/ForecastDisplay.tsx:24-41 | when every item has a weather entry, the aggregation does not throw |
| Daily.CollectExtends | src/components/ForecastDisplay.tsx:13-28 | scanning items of new dates keeps the existing buckets as a prefix |
| Daily.SummarizePrefix | src/components/ForecastDisplay.tsx:30-43 | summarising a prefix of the buckets gives the prefix of the summaries |
| Daily.SameFirstSummaries | src/components/ForecastDisplay.tsx:40-41 | the summaries depend on the list only through its first item |
| Daily.AppendingNewDates | src/components/ForecastDisplay.tsx:13-44 | appending items of new dates leaves every earlier day's summary unchanged: the old result is a prefix of the new one |
| ForecastRoute.UpstreamError | src/app/api/forecast/route.ts:51-56 | the body has exactly the keys `error` and `details`; `details` is the provider's body; `error` is its `message` unless that is null or undefined, and then 'Forecast API returned an error'; so it is never one of the handler's own `{ error }` bodies |
| ForecastRoute.CatchMessage | src/app/api/forecast/route.ts:66-68 | a thrown `Error` gives its message; a thrown value whose `message` is null or undefined gives 'Unknown server error'; any other `message` is used as it is |
| ForecastRoute.Relay | src/app/api/forecast/route.ts:48-65 | only an ok forecast is cached, relayed verbatim with status 200; a non-ok one keeps the provider's status; a thrown fetch gives 500 |
| ForecastRoute.FirstHit | src/app/api/forecast/route.ts:36-40 | the lookup gives a hit exactly when the status is ok and the body is a non-empty array, and the hit is element 0 |
| ForecastRoute.Get | src/app/api/forecast/route.ts:4-69 | key check first (500, no call); coordinates win, verbatim; 400 exactly with neither coordinates nor a city; without both coordinates a city is always looked up first, with limit 1; 404 exactly on a failed lookup; a forecast call exactly when there are coordinates, with units=metric and the stringified first hit, when both coordinates can be stringified; a hit coordinate that `String()` cannot convert gives 500 with V8's TypeError text; a rejected lookup or forecast fetch, or a null first hit, gives 500 with the thrown message; ok forecast relayed and cached; provider status kept on error |
| ForecastRoute.UnprintableCoordinateFails | src/app/api/forecast/route.ts:39 | a first hit whose `lat` is an object with its own `toString` key gets 500 with V8's TypeError text, and no forecast call |
| ForecastRoute.UnvalidatedCoordinates | src/app/api/forecast/route.ts:39-40 | a first hit without `lat`/`lon` is still forwarded, as the text "undefined" |
| ForecastRoute.EmptyCoordinateIgnored | src/app/api/forecast/route.ts:17-21 | an empty `lat` counts as absent, so the city is looked up instead |
| GeocodingRoute.Get | src/app/api/geocoding/route.ts:3-46 | key check before the length test; short or absent query gives uncached 200 `[]` with no call; one lookup with limit 10; an ok array is relayed and cached; a failed empty array gives 200 `[]`; otherwise `{error}` with the body's string `message` (lines 28-31) or the default, at the provider's status; a throw gives 500 with an `Error`'s message, else 'Unknown server error' (lines 42-45) |
| GeocodingRoute.ErrorWithOkStatus | src/app/api/geocoding/route.ts:22-34 | a 2xx non-array body is reported as an error that keeps the 2xx status |
| Debounce.Elapse | src/components/WeatherSearch.tsx:19-22 | a pending timer fires exactly when it is due, appending its arguments and emptying the slot so it cannot fire again; otherwise nothing changes |
| Debounce.Step | src/components/WeatherSearch.tsx:15-30 | a due timer fires first; a call then arms the slot with its arguments `Delay` later, replacing any pending timer; cancel empties it; a tick changes nothing but the firing, so a timer not yet due stays armed |
| Debounce.TicksBeforeDue | src/components/WeatherSearch.tsx:19-22 | time passing before the due time leaves a pending timer armed and fires nothing |
| Debounce.PendingFiresWhenDue | src/components/WeatherSearch.tsx:19-22 | a pending timer fires once, with its arguments, at the first event at or after its due time |
| Debounce.FiredGrows | src/components/WeatherSearch.tsx:19-22 | invocations that have fired stay fired; firing only appends |
| Debounce.PendingIsLatest | src/components/WeatherSearch.tsx:15-23 | at most one invocation is pending, with the latest call's arguments, due `Delay` after it; a cancel after it leaves nothing pending |
| Debounce.FiresAtMostOncePerCall | src/components/WeatherSearch.tsx:15-23 | no more invocations fire than there were calls, plus one pending at the start |
| Debounce.FiredWereCalled | src/components/WeatherSearch.tsx:15-23 | every invocation fires with the arguments of some call, or of the one pending at the start |
| Debounce.NothingFiresAfterCancel | src/components/WeatherSearch.tsx:25-30 | after `cancel`, nothing fires until the next call |
| Debounce.BurstArmsLast | src/components/WeatherSearch.tsx:15-23 | during calls less than `Delay` apart nothing fires, and afterwards only the last call is pending |
| Debounce.BurstFiresOnce | src/components/WeatherSearch.tsx:45-98 | a burst of typing followed by a pause fires the suggestion fetch once, for the last text |
| Debounce.CleanupThenCall | src/components/WeatherSearch.tsx:92-98 | the effect's cleanup-then-call on a text change acts as the call alone |
| WeatherSearch.Trim | src/components/WeatherSearch.tsx:105 | `trim` keeps the part of the text right after its leading white space, followed only by white space, with no white space at either end |
| WeatherSearch.TrimEmpty | src/components/WeatherSearch.tsx:105-107 | the trimmed text is empty exactly when the text is all white space |
| WeatherSearch.TrimIdempotent | src/components/WeatherSearch.tsx:105 | trimming twice is trimming once |
| WeatherSearch.Normalize | src/components/WeatherSearch.tsx:59-77 | a string `name`/`country`/`state` is kept as it is and anything else becomes "" (or no state); each coordinate is the number itself, `Number()` of a string, or NaN otherwise; a non-object element yields an empty, NaN suggestion |
| WeatherSearch.Parse | src/components/WeatherSearch.tsx:59-77 | the `map` succeeds exactly when no element is null, giving one normalised suggestion per element, in order |
| WeatherSearch.Keep | src/components/WeatherSearch.tsx:78 | the filter keeps only usable suggestions (name, country, non-NaN coordinates), and keeps every one of them |
| WeatherSearch.KeepAppend | src/components/WeatherSearch.tsx:78 | filtering distributes over concatenation, so it preserves order |
| WeatherSearch.KeepAll | src/components/WeatherSearch.tsx:78 | filtering changes nothing exactly when every suggestion is usable |
| WeatherSearch.FetchSuggestions | src/components/WeatherSearch.tsx:47-88 | text shorter than 3 makes no request and gives `[]`; otherwise the request is the text itself; suggestions appear only for an ok array reply, and are then its usable normalised entries; every suggestion shown is usable |
| WeatherSearch.Submit | src/components/WeatherSearch.tsx:101-122 | an empty trimmed text with no selection only sets 'Please enter a city name.', keeping data, loading and suggestions; otherwise the error is cleared, loading set, suggestions cleared, and the request is by the selection's coordinates or by the trimmed text |
| WeatherSearch.Complete | src/components/WeatherSearch.tsx:124-159 | loading ends; data is shown exactly for an ok reply with `city` and an array `list`, verbatim; a non-ok reply shows the body's string `message`, else 'Failed to fetch weather data' (lines 128-134); each failure sets its message and clears data; when `${cd.name}, ${cd.country}` throws because a value cannot be printed, the data set on line 147 is cleared again and the TypeError's message is shown (lines 149-156); the text changes only on success, to "name, country" when both are truthy, and stays as it was otherwise |
| WeatherSearch.SuggestionLabel | src/components/WeatherSearch.tsx:163 | the label starts with the name and ends with ", country"; between them is ", state" when the state is a non-empty string, and nothing otherwise |
| WeatherSearch.LabelShowsState | src/components/WeatherSearch.tsx:163 | for places with the same name and country, the labels differ exactly when their state texts differ |
| WeatherSearch.Click | src/components/WeatherSearch.tsx:162-166 | a click sets the label, then starts a search by the suggestion's coordinates |
| WeatherSearch.StartedSearchIsClean | src/components/WeatherSearch.tsx:103-113 | a started search is loading and shows no stale error |
| WeatherSearch.SearchOutcome | src/components/WeatherSearch.tsx:124-159 | after a search, loading is off; shown data comes with no error; no data with no error happens only when the failure's own message was empty |
| WeatherSearch.EmptySubmitKeepsData | src/components/WeatherSearch.tsx:107-110 | an empty submit keeps the forecast already on screen next to the error |
| Pipeline.GatewayErrorsShowGenericText | src/components/WeatherSearch.tsx:128-134 | every non-ok answer of the forecast gateway shows 'Failed to fetch weather data' and no data, since its error bodies carry `error`, not `message` |
| Pipeline.ProviderMessageIsLost | src/app/api/forecast/route.ts:51-56 | for every request that reaches the forecast call and every non-ok reply with a non-null `message`: the gateway keeps the status, puts that `message` under `error` and sends no `message`, so the client shows its generic text |
| Pipeline.TypedSearchIsLookedUp | src/components/WeatherSearch.tsx:105-121 | a search started from typed text is never answered 400: the gateway looks up the trimmed text |
| Pipeline.ServedForecastIsShown | src/components/WeatherSearch.tsx:136-152 | a forecast the gateway serves is shown exactly when it has the checked shape and its city line does not throw, and then verbatim |
| Pipeline.SuggestionsEndToEnd | src/components/WeatherSearch.tsx:53-80 | for a long enough text, the suggestions shown are the usable entries of the provider's list, in order, from one lookup with limit 10 |
| Pipeline.SameCutoff | src/app/api/geocoding/route.ts:13-15 | the client asks for suggestions exactly when the gateway would look the text up |
| Pipeline.NullEntryHidesAll | src/components/WeatherSearch.tsx:59-87 | one null entry in the provider's list hides every suggestion |

## Where the code departs from what a reader might expect

The model follows the code in each of these cases:

- **Day bucketing is by UTC date.** Days are keyed by `toISOString().split('T')[0]`, the UTC date
  (ForecastDisplay.tsx:14-15). Only the midday window uses `getHours()`, the viewer's local
  hour (line 22). Near midnight an item can fall on a different day than its local clock shows.
- **Coordinates are not validated.** Coordinates win whenever `lat` and `lon` are non-empty
  strings, with no range or number check (forecast/route.ts:17-21). Geocoded coordinates are
  forwarded with no check at all (lines 39-40): `UnvalidatedCoordinates` shows that a hit
  without them is sent as "undefined".
- **The provider's message never reaches the screen.** The forecast gateway puts it in the
  body under `error` (forecast/route.ts:54), and the client reads `message`
  (WeatherSearch.tsx:129-133). So the client always shows its generic text: see
  `GatewayErrorsShowGenericText` and `ProviderMessageIsLost`.
- **A day that is never shown can still break the panel.** The scan reads `weather[0]` of every
  date's first midday item (ForecastDisplay.tsx:22-25), and the `map` summarises every date
  before `slice(0, 5)` (lines 30-44). So a sixth date with a bad item makes the whole
  aggregation throw (`DailyFailure`).
- **A city line that cannot be printed hides a valid forecast.** `setData(json)` runs before
  `${cd.name}, ${cd.country}` (WeatherSearch.tsx:147-151). When that template throws, the `catch`
  clears the data again and shows the `TypeError`'s message (`Complete`).
- **A completed search can leave data and error both empty or both set.** A success never
  clears `error` (WeatherSearch.tsx:147-152). It is empty only because starting a search
  cleared it (line 103).
  - A failure whose message is the empty string leaves both empty (`SearchOutcome`).
  - An empty submit returns before touching `data` (lines 107-110), so the old forecast stays
    next to the new error (`EmptySubmitKeepsData`).

## Left out

- `fetch`, `NextResponse`, `request.json()`/`res.json()` parsing, `process.env` and
  `encodeURIComponent`/URL handling. These are I/O and encoding.
  - The model takes the provider's replies as already-parsed `Json` values (or a thrown value),
    and the key as an optional string.
  - Outbound requests are recorded as `Call` values, not URLs.
  - A reply is used only when the code would make that call.
- Number formatting and parsing are floating-point conversions, so they are function parameters:
  - `show` stands for `String(n)` and template-literal numbers;
  - `toNumber` stands for `Number(s)`.
- Real timers and concurrency are left out:
  - two searches or suggestion fetches in flight at once and racing each other;
  - React's scheduling of effects and state updates.

  The debounce model treats time as explicit events and lets a due timer fire before any event
  at the same or a later time.
- The time zone is one fixed offset, with no daylight-saving changes within the list.
- Temperatures are `real`. IEEE-754 effects such as NaN temperatures, `-0` and rounding are not
  modelled. Neither is `Math.min`/`Math.max` overflowing the argument limit on huge lists.
- `new Date(dt * 1000).toISOString()` throwing `RangeError` for timestamps beyond the `Date`
  range is not modelled.
- Character counts are Dafny characters, not UTF-16 code units. The length cutoffs (3) therefore
  differ from JavaScript's `.length` for text outside the Basic Multilingual Plane.
- ForecastRoute.CatchMessage: the `catch` reads `err.message`, and for a thrown `null` or
  `undefined` that read itself throws inside the `catch`. The model has no such thrown value,
  because the handler's awaited calls never reject with `null`.
- ForecastRoute.Get: the texts of the `TypeError`s for a null first geocoding hit and for a value
  `String()` cannot convert are V8's wording, taken as constants.
- Daily.Display: takes a typed `ForecastData`, whose items have the shape `src/types/weather.ts`
  declares. The client stores any object with a `city` key and an array `list`
  (WeatherSearch.tsx:137-147) and renders it (line 207). So the rendering of a stored `Json` is
  not modelled: an item without `main` or `weather`, or with a `dt` that is not a number, would
  throw in ForecastDisplay.tsx:15-27, and the model has no such failure.
- Daily.Summarize: an icon or description that is not a string is treated as a string; the
  types declare strings.
- Locale formatting (`toLocaleDateString` day names, sunrise/sunset `toLocaleTimeString`) and
  `Math.round` in rendering are display only.
- All JSX markup, including `DailyForecastCard`, is display only.
- `ThemeContext`, `DarkToggle`, `WeatherCard`, `page`, `layout` and `next.config` are outside the
  search and forecast logic. They cover theme storage and layout, plus an unused card.
- `console.error` in the suggestion fetch is logging only.

=== FILE: daily.dfy ===
/** The daily aggregation behind the forecast panel: the 3-hourly forecast
    list is bucketed by UTC date, each day keeps the pooled minimum and
    maximum temperature and the first late-morning-to-early-afternoon
    condition, and the first five days are shown, the first as "today". */
module Daily {
  import opened Js

  const SecondsPerDay := 86400
  const SecondsPerHour := 3600
  /** The local-hour window, inclusive, whose first item gives a day its icon. */
  const MiddayFrom := 10
  const MiddayTo := 14
  /** At most this many days are shown. */
  const MaxDays := 5

  /** One entry of an item's `weather` array. */
  datatype Condition = Condition(icon: string, description: string)

  /** One 3-hourly forecast item; `dt` is in Unix seconds. */
  datatype ForecastItem = ForecastItem(dt: int, tempMin: real, tempMax: real, weather: seq<Condition>)

  datatype City = City(name: string, country: string, sunrise: int, sunset: int)

  /** The forecast payload the panel renders. */
  datatype ForecastData = ForecastData(city: City, list: seq<ForecastItem>)

  /** One summarised day; `day` counts whole UTC days since the epoch. */
  datatype DailySummary = DailySummary(day: int, minTemp: real, maxTemp: real, icon: string, description: string)

  /** The per-date record built while scanning the list: every temperature
      seen, and the `weather` array of the first midday item if there was one. */
  datatype Bucket = Bucket(day: int, temps: seq<real>, midday: Option<seq<Condition>>)

  /** The UTC date of an item (the date part of `toISOString`), as a day number.
      Dafny's `/` rounds down here, as the calendar does before 1970. */
  function DayOf(x: ForecastItem): int
  {
    x.dt / SecondsPerDay
  }

  /** `getHours()`: the hour in the viewer's time zone, `offset` seconds east of UTC. */
  function LocalHour(x: ForecastItem, offset: int): (h: int)
    ensures 0 <= h < 24
  {
    ((x.dt + offset) / SecondsPerHour) % 24
  }

  /** The date key is the UTC day whose span of seconds holds `dt`. */
  lemma {:induction false} DaySpan(x: ForecastItem)
    ensures DayOf(x) * SecondsPerDay <= x.dt < (DayOf(x) + 1) * SecondsPerDay
  {
  }

  /** The local time `dt + offset` falls in hour `LocalHour` of its local day. */
  lemma {:induction false} HourSpan(x: ForecastItem, offset: int)
    ensures var t := x.dt + offset;
            var day := t / SecondsPerDay;
            var h := LocalHour(x, offset);
            day * SecondsPerDay + h * SecondsPerHour <= t < day * SecondsPerDay + (h + 1) * SecondsPerHour
  {
    var t := x.dt + offset;
    var hours := t / SecondsPerHour;
    assert t / SecondsPerDay == hours / 24;
  }

  predicate IsMidday(x: ForecastItem, offset: int)
  {
    MiddayFrom <= LocalHour(x, offset) <= MiddayTo
  }

  function Min(a: int, b: int): int
  {
    if a <= b then a else b
  }

  /** `Math.min(...s)`. */
  function MinOf(s: seq<real>): (m: real)
    requires |s| > 0
    ensures m in s
    ensures forall k :: 0 <= k < |s| ==> m <= s[k]
  {
    if |s| == 1 then s[0]
    else
      var rest := MinOf(s[1..]);
      if s[0] <= rest then s[0] else rest
  }

  /** `Math.max(...s)`. */
  function MaxOf(s: seq<real>): (m: real)
    requires |s| > 0
    ensures m in s
    ensures forall k :: 0 <= k < |s| ==> s[k] <= m
  {
    if |s| == 1 then s[0]
    else
      var rest := MaxOf(s[1..]);
      if rest <= s[0] then s[0] else rest
  }

  // ---------------------------------------------------------------------
  // The scan over the list (the `forEach`)
  // ---------------------------------------------------------------------

  /** Position of the bucket for day `d`, or `|bs|` when there is none. */
  function FindDay(bs: seq<Bucket>, d: int): (i: nat)
    ensures i <= |bs|
    ensures i < |bs| ==> bs[i].day == d
    ensures forall j :: 0 <= j < i ==> bs[j].day != d
  {
    if |bs| == 0 then 0
    else if bs[0].day == d then 0
    else 1 + FindDay(bs[1..], d)
  }

  /** Adds an item to its day's bucket: both temperatures are pooled, and the
      item's weather is recorded only if it is midday and the day has none yet. */
  function Absorb(b: Bucket, x: ForecastItem, offset: int): Bucket
  {
    Bucket(b.day, b.temps + [x.tempMin, x.tempMax],
           if b.midday.None? && IsMidday(x, offset) then Some(x.weather) else b.midday)
  }

  /** One step of the scan: update the item's day, or open a new day at the end. */
  function Add(bs: seq<Bucket>, x: ForecastItem, offset: int): seq<Bucket>
  {
    var i := FindDay(bs, DayOf(x));
    if i < |bs| then bs[i := Absorb(bs[i], x, offset)]
    else bs + [Absorb(Bucket(DayOf(x), [], None), x, offset)]
  }

  /** The buckets after scanning the whole list, in insertion order (which is
      the order `Object.keys` gives for date-string keys). */
  function Collect(list: seq<ForecastItem>, offset: int): (bs: seq<Bucket>)
    ensures |bs| == 0 <==> |list| == 0
    ensures |bs| <= |list|
    ensures forall k :: 0 <= k < |bs| ==> |bs[k].temps| >= 2
    decreases |list|
  {
    if |list| == 0 then []
    else Add(Collect(list[..|list| - 1], offset), list[|list| - 1], offset)
  }

  // ---------------------------------------------------------------------
  // The per-day summary (the `map` over the keys) and the final slice
  // ---------------------------------------------------------------------

  /** The summary of one bucket; `first` is `list[0]`. `None` when
      `getDailyForecasts` throws a TypeError: the icon or description falls back to
      `list[0].weather[0]` and `list[0]` has no weather entry. An empty string
      of the day's own counts as missing (the `||` fallback). */
  function Summarize(b: Bucket, first: ForecastItem): (r: Option<DailySummary>)
    requires |b.temps| > 0
    ensures r.Some? ==> r.value.day == b.day && r.value.minTemp <= r.value.maxTemp
    ensures r.Some? ==> r.value.minTemp in b.temps && r.value.maxTemp in b.temps
  {
    var own := if b.midday.Some? && |b.midday.value| > 0 then b.midday.value[0] else Condition("", "");
    if (own.icon == "" || own.description == "") && |first.weather| == 0 then None
    else
      Some(DailySummary(
        b.day, MinOf(b.temps), MaxOf(b.temps),
        if own.icon != "" then own.icon else first.weather[0].icon,
        if own.description != "" then own.description else first.weather[0].description))
  }

  /** Summaries of every bucket, in order; `None` if any of them throws.
      `list[0]` is read only when there is a bucket to summarise. */
  function SummarizeAll(bs: seq<Bucket>, list: seq<ForecastItem>): (r: Option<seq<DailySummary>>)
    requires forall k :: 0 <= k < |bs| ==> |bs[k].temps| > 0
    requires |bs| > 0 ==> |list| > 0
    ensures r.Some? <==> forall k :: 0 <= k < |bs| ==> Summarize(bs[k], list[0]).Some?
    ensures r.Some? ==> |r.value| == |bs|
    ensures r.Some? ==> forall k :: 0 <= k < |bs| ==> Summarize(bs[k], list[0]) == Some(r.value[k])
  {
    if |bs| == 0 then Some([])
    else
      match Summarize(bs[0], list[0])
      case None => None
      case Some(s) =>
        match SummarizeAll(bs[1..], list)
        case None => None
        case Some(rest) =>
          assert forall k :: 0 < k < |bs| ==> bs[1..][k - 1] == bs[k];
          Some([s] + rest)
  }

  /** True when no day's first midday item lacks a weather entry (reading
      its `weather[0].icon` would throw). */
  predicate MiddayReadable(bs: seq<Bucket>)
  {
    forall k :: 0 <= k < |bs| ==> bs[k].midday != Some([])
  }

  /** `getDailyForecasts(list)`: `None` when it throws a TypeError. */
  function DailyForecasts(list: seq<ForecastItem>, offset: int): (r: Option<seq<DailySummary>>)
    ensures |list| == 0 ==> r == Some([])
    ensures r.Some? ==> |r.value| <= MaxDays
    ensures r.Some? ==> (|r.value| == 0 <==> |list| == 0)
    ensures r.Some? ==> forall k :: 0 <= k < |r.value| ==> r.value[k].minTemp <= r.value[k].maxTemp
  {
    var bs := Collect(list, offset);
    if !MiddayReadable(bs) then None
    else
      match SummarizeAll(bs, list)
      case None => None
      case Some(all) => Some(all[..Min(MaxDays, |all|)])
  }

  /** What the panel shows: today's summary (element 0) and the upcoming days
      (the rest). `None` when rendering throws. */
  datatype View = View(today: Option<DailySummary>, upcoming: seq<DailySummary>)

  function Display(data: ForecastData, offset: int): (v: Option<View>)
    ensures v.Some? ==> |v.value.upcoming| <= MaxDays - 1
    ensures v.Some? ==> (v.value.today.None? <==> |data.list| == 0)
    ensures v.Some? && v.value.today.None? ==> v.value.upcoming == []
    ensures v.Some? <==> DailyForecasts(data.list, offset).Some?
    ensures v.Some? && v.value.today.Some? ==>
              DailyForecasts(data.list, offset).value == [v.value.today.value] + v.value.upcoming
  {
    match DailyForecasts(data.list, offset)
    case None => None
    case Some(days) =>
      if |days| == 0 then Some(View(None, []))
      else Some(View(Some(days[0]), days[1..]))
  }

  // ---------------------------------------------------------------------
  // Reference definitions, stated over the input list alone
  // ---------------------------------------------------------------------

  /** The set of UTC dates that occur in the list. */
  function DaysIn(list: seq<ForecastItem>): set<int>
  {
    set i | 0 <= i < |list| :: DayOf(list[i])
  }

  /** Index of the first item dated `d`, or `|list|` when there is none. */
  function FirstOfDay(list: seq<ForecastItem>, d: int): (i: nat)
    ensures i <= |list|
    ensures i < |list| ==> DayOf(list[i]) == d
    ensures forall j :: 0 <= j < i ==> DayOf(list[j]) != d
    decreases |list|
  {
    if |list| == 0 then 0
    else
      var a := FirstOfDay(list[..|list| - 1], d);
      if a < |list| - 1 then a
      else if DayOf(list[|list| - 1]) == d then |list| - 1
      else |list|
  }

  predicate MiddayOf(x: ForecastItem, d: int, offset: int)
  {
    DayOf(x) == d && IsMidday(x, offset)
  }

  /** Index of the first midday item dated `d`, or `|list|` when there is none. */
  function FirstMiddayOfDay(list: seq<ForecastItem>, d: int, offset: int): (i: nat)
    ensures i <= |list|
    ensures i < |list| ==> MiddayOf(list[i], d, offset)
    ensures forall j :: 0 <= j < i ==> !MiddayOf(list[j], d, offset)
    decreases |list|
  {
    if |list| == 0 then 0
    else
      var a := FirstMiddayOfDay(list[..|list| - 1], d, offset);
      if a < |list| - 1 then a
      else if MiddayOf(list[|list| - 1], d, offset) then |list| - 1
      else |list|
  }

  /** The weather array of the first midday item dated `d`, if any. */
  function MiddayWeather(list: seq<ForecastItem>, d: int, offset: int): Option<seq<Condition>>
  {
    var i := FirstMiddayOfDay(list, d, offset);
    if i < |list| then Some(list[i].weather) else None
  }

  /** Every `temp_min` and `temp_max` of the items dated `d`, in list order. */
  function Pool(list: seq<ForecastItem>, d: int): seq<real>
    decreases |list|
  {
    if |list| == 0 then []
    else
      var x := list[|list| - 1];
      Pool(list[..|list| - 1], d) + (if DayOf(x) == d then [x.tempMin, x.tempMax] else [])
  }

  /** A bucket as the list alone describes it: its date occurs in the list,
      and it holds that date's pooled temperatures and first midday weather. */
  ghost predicate Describes(list: seq<ForecastItem>, offset: int, b: Bucket)
  {
    && FirstOfDay(list, b.day) < |list|
    && b.temps == Pool(list, b.day)
    && b.midday == MiddayWeather(list, b.day, offset)
  }

  /** Every bucket is as the list describes it. */
  ghost predicate AllDescribed(list: seq<ForecastItem>, offset: int, bs: seq<Bucket>)
  {
    forall k :: 0 <= k < |bs| ==> Describes(list, offset, bs[k])
  }

  /** Every date of the list has a bucket. */
  ghost predicate Covers(list: seq<ForecastItem>, bs: seq<Bucket>)
  {
    forall i :: 0 <= i < |list| ==> FindDay(bs, DayOf(list[i])) < |bs|
  }

  /** The buckets are in the order their dates first occur in the list. */
  ghost predicate InFirstOrder(list: seq<ForecastItem>, bs: seq<Bucket>)
  {
    forall i, j :: 0 <= i < j < |bs| ==> FirstOfDay(list, bs[i].day) < FirstOfDay(list, bs[j].day)
  }

  /** The scan's buckets, described by the list alone: one bucket per date
      present, in order of first occurrence, each as `Describes` says. */
  ghost predicate Collected(list: seq<ForecastItem>, offset: int, bs: seq<Bucket>)
  {
    AllDescribed(list, offset, bs) && Covers(list, bs) && InFirstOrder(list, bs)
  }

  // ---------------------------------------------------------------------
  // Lemmas
  // ---------------------------------------------------------------------

  /** The pooled temperatures of a date are exactly the `temp_min` and
      `temp_max` values of the items of that date. */
  lemma {:induction false} PoolMembers(list: seq<ForecastItem>, d: int)
    ensures forall j :: 0 <= j < |list| && DayOf(list[j]) == d ==>
              list[j].tempMin in Pool(list, d) && list[j].tempMax in Pool(list, d)
    ensures forall t :: t in Pool(list, d) ==>
              exists j :: 0 <= j < |list| && DayOf(list[j]) == d && (t == list[j].tempMin || t == list[j].tempMax)
    decreases |list|
  {
    if |list| > 0 {
      var init := list[..|list| - 1];
      var x := list[|list| - 1];
      PoolMembers(init, d);
      assert Pool(list, d) == Pool(init, d) + (if DayOf(x) == d then [x.tempMin, x.tempMax] else []);
      forall t | t in Pool(list, d)
        ensures exists j :: 0 <= j < |list| && DayOf(list[j]) == d && (t == list[j].tempMin || t == list[j].tempMax)
      {
        if t in Pool(init, d) {
          var j :| 0 <= j < |init| && DayOf(init[j]) == d && (t == init[j].tempMin || t == init[j].tempMax);
          assert list[j] == init[j];
        } else {
          assert DayOf(list[|list| - 1]) == d;
        }
      }
      forall j | 0 <= j < |list| && DayOf(list[j]) == d
        ensures list[j].tempMin in Pool(list, d) && list[j].tempMax in Pool(list, d)
      {
        if j < |init| {
          assert list[j] == init[j];
        }
      }
    }
  }

  /** A date with no item has no pooled temperatures. */
  lemma {:induction false} PoolOfAbsentDay(list: seq<ForecastItem>, d: int)
    requires forall j :: 0 <= j < |list| ==> DayOf(list[j]) != d
    ensures Pool(list, d) == []
    decreases |list|
  {
    if |list| > 0 {
      var init := list[..|list| - 1];
      assert forall j :: 0 <= j < |init| ==> init[j] == list[j];
      PoolOfAbsentDay(init, d);
    }
  }

  /** How appending one item changes the reference definitions for date `e`. */
  lemma {:induction false} AppendOne(list: seq<ForecastItem>, x: ForecastItem, e: int, offset: int)
    ensures FirstOfDay(list + [x], e) ==
              if FirstOfDay(list, e) < |list| then FirstOfDay(list, e)
              else if DayOf(x) == e then |list| else |list| + 1
    ensures Pool(list + [x], e) == Pool(list, e) + (if DayOf(x) == e then [x.tempMin, x.tempMax] else [])
    ensures MiddayWeather(list + [x], e, offset) ==
              if MiddayWeather(list, e, offset).Some? then MiddayWeather(list, e, offset)
              else if MiddayOf(x, e, offset) then Some(x.weather) else None
  {
    var l' := list + [x];
    assert l'[..|l'| - 1] == list;
    var a := FirstMiddayOfDay(list, e, offset);
    if a < |list| {
      assert l'[a] == list[a];
    }
  }

  /** A bucket of another date is unaffected by a new item. */
  lemma {:induction false} OtherDayKept(list: seq<ForecastItem>, x: ForecastItem, offset: int, b: Bucket)
    requires Describes(list, offset, b)
    requires b.day != DayOf(x)
    ensures Describes(list + [x], offset, b)
    ensures FirstOfDay(list + [x], b.day) == FirstOfDay(list, b.day)
  {
    AppendOne(list, x, b.day, offset);
  }

  /** The bucket of the item's date absorbs it as the list grows by it. */
  lemma {:induction false} SameDayAbsorbed(list: seq<ForecastItem>, x: ForecastItem, offset: int, b: Bucket)
    requires Describes(list, offset, b)
    requires b.day == DayOf(x)
    ensures Describes(list + [x], offset, Absorb(b, x, offset))
    ensures FirstOfDay(list + [x], b.day) == FirstOfDay(list, b.day)
  {
    AppendOne(list, x, b.day, offset);
  }

  /** A date the list has not seen yet gets a fresh bucket that absorbs the item. */
  lemma {:induction false} NewDayOpened(list: seq<ForecastItem>, x: ForecastItem, offset: int)
    requires forall j :: 0 <= j < |list| ==> DayOf(list[j]) != DayOf(x)
    ensures Describes(list + [x], offset, Absorb(Bucket(DayOf(x), [], None), x, offset))
    ensures FirstOfDay(list + [x], DayOf(x)) == |list|
  {
    var d := DayOf(x);
    AppendOne(list, x, d, offset);
    PoolOfAbsentDay(list, d);
    assert FirstOfDay(list, d) == |list|;
    assert FirstMiddayOfDay(list, d, offset) == |list|;
  }

  /** Buckets of distinct dates: the first-occurrence order is strict. */
  lemma {:induction false} DistinctDays(list: seq<ForecastItem>, bs: seq<Bucket>)
    requires InFirstOrder(list, bs)
    ensures forall i, j :: 0 <= i < |bs| && 0 <= j < |bs| && i != j ==> bs[i].day != bs[j].day
  {
    forall i, j | 0 <= i < |bs| && 0 <= j < |bs| && i != j
      ensures bs[i].day != bs[j].day
    {
      if i < j {
        assert FirstOfDay(list, bs[i].day) < FirstOfDay(list, bs[j].day);
      } else {
        assert FirstOfDay(list, bs[j].day) < FirstOfDay(list, bs[i].day);
      }
    }
  }

  /** After an item of a known date every bucket is as the list describes it,
      and no bucket's first occurrence moves. */
  lemma {:induction false} AddExistingDescribed(list: seq<ForecastItem>, x: ForecastItem, offset: int, bs: seq<Bucket>, i: nat)
    requires AllDescribed(list, offset, bs)
    requires i < |bs| && bs[i].day == DayOf(x)
    requires forall k :: 0 <= k < |bs| && k != i ==> bs[k].day != DayOf(x)
    ensures var bs' := bs[i := Absorb(bs[i], x, offset)];
      && AllDescribed(list + [x], offset, bs')
      && forall k :: 0 <= k < |bs| ==> bs'[k].day == bs[k].day && FirstOfDay(list + [x], bs[k].day) == FirstOfDay(list, bs[k].day)
  {
    var bs' := bs[i := Absorb(bs[i], x, offset)];
    forall k | 0 <= k < |bs|
      ensures Describes(list + [x], offset, bs'[k])
      ensures FirstOfDay(list + [x], bs[k].day) == FirstOfDay(list, bs[k].day)
    {
      assert Describes(list, offset, bs[k]);
      if k == i {
        SameDayAbsorbed(list, x, offset, bs[k]);
      } else {
        OtherDayKept(list, x, offset, bs[k]);
      }
    }
  }

  /** After an item of a known date every item's date still has a bucket. */
  lemma {:induction false} AddExistingCovers(list: seq<ForecastItem>, x: ForecastItem, bs: seq<Bucket>, bs': seq<Bucket>)
    requires Covers(list, bs)
    requires |bs'| == |bs| && forall k :: 0 <= k < |bs| ==> bs'[k].day == bs[k].day
    requires FindDay(bs, DayOf(x)) < |bs|
    ensures Covers(list + [x], bs')
  {
    var l' := list + [x];
    forall j | 0 <= j < |l'|
      ensures FindDay(bs', DayOf(l'[j])) < |bs'|
    {
      var e := DayOf(l'[j]);
      var f := if j < |list| then FindDay(bs, DayOf(list[j])) else FindDay(bs, DayOf(x));
      assert l'[j] == if j < |list| then list[j] else x;
      assert bs'[f].day == e;
    }
  }

  /** Scanning an item whose date already has a bucket keeps `Collected`. */
  lemma {:induction false} AddExisting(list: seq<ForecastItem>, x: ForecastItem, offset: int, bs: seq<Bucket>)
    requires Collected(list, offset, bs)
    requires FindDay(bs, DayOf(x)) < |bs|
    ensures Collected(list + [x], offset, Add(bs, x, offset))
  {
    var i := FindDay(bs, DayOf(x));
    var bs' := bs[i := Absorb(bs[i], x, offset)];
    DistinctDays(list, bs);
    AddExistingDescribed(list, x, offset, bs, i);
    AddExistingCovers(list, x, bs, bs');
    assert InFirstOrder(list + [x], bs') by {
      assert InFirstOrder(list, bs);
    }
  }

  /** The buckets already built stay correct when an item of a new date arrives. */
  lemma {:induction false} NewDayKeepsOthers(list: seq<ForecastItem>, x: ForecastItem, offset: int, bs: seq<Bucket>)
    requires forall k :: 0 <= k < |bs| ==> Describes(list, offset, bs[k]) && bs[k].day != DayOf(x)
    ensures forall k :: 0 <= k < |bs| ==>
              Describes(list + [x], offset, bs[k]) && FirstOfDay(list + [x], bs[k].day) == FirstOfDay(list, bs[k].day)
  {
    forall k | 0 <= k < |bs|
      ensures Describes(list + [x], offset, bs[k]) && FirstOfDay(list + [x], bs[k].day) == FirstOfDay(list, bs[k].day)
    {
      OtherDayKept(list, x, offset, bs[k]);
    }
  }

  /** No item of the list has a date without a bucket. */
  lemma {:induction false} NoEarlierItem(list: seq<ForecastItem>, bs: seq<Bucket>, d: int)
    requires Covers(list, bs)
    requires FindDay(bs, d) == |bs|
    ensures forall j :: 0 <= j < |list| ==> DayOf(list[j]) != d
  {
    forall j | 0 <= j < |list|
      ensures DayOf(list[j]) != d
    {
      assert FindDay(bs, DayOf(list[j])) < |bs|;
    }
  }

  /** The bucket opened for an item of a new date comes after all others. */
  lemma {:induction false} AddNewOrdered(list: seq<ForecastItem>, x: ForecastItem, offset: int, bs: seq<Bucket>)
    requires InFirstOrder(list, bs)
    requires forall k :: 0 <= k < |bs| ==> Describes(list, offset, bs[k]) && bs[k].day != DayOf(x)
    requires forall j :: 0 <= j < |list| ==> DayOf(list[j]) != DayOf(x)
    ensures InFirstOrder(list + [x], bs + [Absorb(Bucket(DayOf(x), [], None), x, offset)])
  {
    var l' := list + [x];
    var bs' := bs + [Absorb(Bucket(DayOf(x), [], None), x, offset)];
    NewDayOpened(list, x, offset);
    NewDayKeepsOthers(list, x, offset, bs);
    forall i, j | 0 <= i < j < |bs'|
      ensures FirstOfDay(l', bs'[i].day) < FirstOfDay(l', bs'[j].day)
    {
      assert bs'[i] == bs[i];
      if j < |bs| {
        assert bs'[j] == bs[j];
        assert FirstOfDay(list, bs[i].day) < FirstOfDay(list, bs[j].day);
      }
    }
  }

  /** After an item of a new date every item's date has a bucket. */
  lemma {:induction false} AddNewCovers(list: seq<ForecastItem>, x: ForecastItem, offset: int, bs: seq<Bucket>)
    requires Covers(list, bs)
    requires FindDay(bs, DayOf(x)) == |bs|
    ensures Covers(list + [x], bs + [Absorb(Bucket(DayOf(x), [], None), x, offset)])
  {
    var l' := list + [x];
    var bs' := bs + [Absorb(Bucket(DayOf(x), [], None), x, offset)];
    forall j | 0 <= j < |l'|
      ensures FindDay(bs', DayOf(l'[j])) < |bs'|
    {
      var e := DayOf(l'[j]);
      if j < |list| {
        assert l'[j] == list[j];
        assert bs'[FindDay(bs, e)].day == e;
      } else {
        assert bs'[|bs|].day == e;
      }
    }
  }

  /** After an item of a new date every bucket, old and new, is as the list describes it. */
  lemma {:induction false} AddNewDescribed(list: seq<ForecastItem>, x: ForecastItem, offset: int, bs: seq<Bucket>)
    requires forall k :: 0 <= k < |bs| ==> Describes(list, offset, bs[k]) && bs[k].day != DayOf(x)
    requires forall j :: 0 <= j < |list| ==> DayOf(list[j]) != DayOf(x)
    ensures AllDescribed(list + [x], offset, bs + [Absorb(Bucket(DayOf(x), [], None), x, offset)])
  {
    var bs' := bs + [Absorb(Bucket(DayOf(x), [], None), x, offset)];
    NewDayOpened(list, x, offset);
    NewDayKeepsOthers(list, x, offset, bs);
    assert forall k :: 0 <= k < |bs| ==> bs'[k] == bs[k];
  }

  /** Scanning an item of a new date keeps `Collected`. */
  lemma {:induction false} AddNew(list: seq<ForecastItem>, x: ForecastItem, offset: int, bs: seq<Bucket>)
    requires Collected(list, offset, bs)
    requires FindDay(bs, DayOf(x)) == |bs|
    ensures Collected(list + [x], offset, Add(bs, x, offset))
  {
    NoEarlierItem(list, bs, DayOf(x));
    assert forall k :: 0 <= k < |bs| ==> Describes(list, offset, bs[k]) && bs[k].day != DayOf(x);
    AddNewDescribed(list, x, offset, bs);
    AddNewOrdered(list, x, offset, bs);
    AddNewCovers(list, x, offset, bs);
  }

  /** Every bucket's date occurs in the list. */
  lemma {:induction false} BucketDaysOccur(list: seq<ForecastItem>, offset: int, bs: seq<Bucket>)
    requires AllDescribed(list, offset, bs)
    ensures forall k :: 0 <= k < |bs| ==> bs[k].day in DaysIn(list)
  {
    forall k | 0 <= k < |bs| ensures bs[k].day in DaysIn(list) {
      assert Describes(list, offset, bs[k]);
      var f := FirstOfDay(list, bs[k].day);
      assert DayOf(list[f]) == bs[k].day;
    }
  }

  /** The scan builds exactly the buckets `Collected` describes. */
  lemma {:induction false} CollectIsCollected(list: seq<ForecastItem>, offset: int)
    ensures Collected(list, offset, Collect(list, offset))
    decreases |list|
  {
    if |list| > 0 {
      var init := list[..|list| - 1];
      var x := list[|list| - 1];
      assert list == init + [x];
      CollectIsCollected(init, offset);
      var bs := Collect(init, offset);
      if FindDay(bs, DayOf(x)) < |bs| {
        AddExisting(init, x, offset, bs);
      } else {
        AddNew(init, x, offset, bs);
      }
    }
  }

  /** The three parts of `Collected`, one at a time, for the scan's buckets. */
  lemma {:induction false} CollectDescribed(list: seq<ForecastItem>, offset: int)
    ensures AllDescribed(list, offset, Collect(list, offset))
  {
    CollectIsCollected(list, offset);
  }

  lemma {:induction false} CollectCovers(list: seq<ForecastItem>, offset: int)
    ensures Covers(list, Collect(list, offset))
  {
    CollectIsCollected(list, offset);
  }

  lemma {:induction false} CollectInFirstOrder(list: seq<ForecastItem>, offset: int)
    ensures InFirstOrder(list, Collect(list, offset))
  {
    CollectIsCollected(list, offset);
  }

  /** The k-th day of the result summarises the k-th bucket of the scan. */
  lemma {:induction false} ResultBuckets(list: seq<ForecastItem>, offset: int)
    requires DailyForecasts(list, offset).Some?
    ensures var r := DailyForecasts(list, offset).value;
      && |r| == Min(MaxDays, |Collect(list, offset)|)
      && forall k :: 0 <= k < |r| ==> |list| > 0 && Summarize(Collect(list, offset)[k], list[0]) == Some(r[k])
  {
    var bs := Collect(list, offset);
    var all := SummarizeAll(bs, list).value;
    assert DailyForecasts(list, offset).value == all[..Min(MaxDays, |all|)];
  }

  /** A sequence without repeated elements has as many elements as its set. */
  lemma {:induction false} DistinctCard(s: seq<int>)
    requires forall i, j :: 0 <= i < j < |s| ==> s[i] != s[j]
    ensures |set i | 0 <= i < |s| :: s[i]| == |s|
    decreases |s|
  {
    if |s| > 0 {
      var init := s[..|s| - 1];
      DistinctCard(init);
      var a := set i | 0 <= i < |init| :: init[i];
      var b := set i | 0 <= i < |s| :: s[i];
      assert b == a + {s[|s| - 1]} by {
        forall v | v in b ensures v in a + {s[|s| - 1]} {
          var i :| 0 <= i < |s| && s[i] == v;
          if i < |init| { assert init[i] == v; }
        }
        forall v | v in a ensures v in b {
          var i :| 0 <= i < |init| && init[i] == v;
          assert s[i] == v;
        }
      }
      assert s[|s| - 1] !in a;
    }
  }

  /** There is one bucket per distinct date. */
  lemma {:induction false} BucketCount(list: seq<ForecastItem>, offset: int)
    ensures |Collect(list, offset)| == |DaysIn(list)|
  {
    var bs := Collect(list, offset);
    var days := seq(|bs|, k requires 0 <= k < |bs| => bs[k].day);
    assert forall i, j :: 0 <= i < j < |days| ==> days[i] != days[j] by {
      CollectInFirstOrder(list, offset);
      DistinctDays(list, bs);
    }
    DistinctCard(days);
    var s := set i | 0 <= i < |days| :: days[i];
    assert s <= DaysIn(list) by {
      CollectDescribed(list, offset);
      BucketDaysOccur(list, offset, bs);
    }
    assert DaysIn(list) <= s by {
      CollectCovers(list, offset);
      forall v | v in DaysIn(list) ensures v in s {
        var i :| 0 <= i < |list| && DayOf(list[i]) == v;
        var k := FindDay(bs, v);
        assert days[k] == v;
      }
    }
    assert s == DaysIn(list);
  }

  /** The date facts of the result, from the facts about the buckets it was cut from. */
  lemma {:induction false} DatesFromBuckets(list: seq<ForecastItem>, r: seq<DailySummary>, bs: seq<Bucket>)
    requires |r| == Min(MaxDays, |bs|) && |bs| == |DaysIn(list)|
    requires forall k :: 0 <= k < |r| ==> r[k].day == bs[k].day
    requires forall k :: 0 <= k < |bs| ==> bs[k].day in DaysIn(list)
    requires forall i, j :: 0 <= i < j < |bs| ==> FirstOfDay(list, bs[i].day) < FirstOfDay(list, bs[j].day)
    requires forall i :: 0 <= i < |list| ==> FindDay(bs, DayOf(list[i])) < |bs|
    ensures |r| == Min(MaxDays, |DaysIn(list)|)
    ensures forall k :: 0 <= k < |r| ==> r[k].day in DaysIn(list)
    ensures forall i, j :: 0 <= i < j < |r| ==> FirstOfDay(list, r[i].day) < FirstOfDay(list, r[j].day)
    ensures forall i, k :: 0 <= i < |list| && 0 <= k < |r| && (forall m :: 0 <= m < |r| ==> r[m].day != DayOf(list[i])) ==>
              |r| == MaxDays && FirstOfDay(list, r[k].day) < FirstOfDay(list, DayOf(list[i]))
  {
    forall i, k | 0 <= i < |list| && 0 <= k < |r| && (forall m :: 0 <= m < |r| ==> r[m].day != DayOf(list[i]))
      ensures |r| == MaxDays && FirstOfDay(list, r[k].day) < FirstOfDay(list, DayOf(list[i]))
    {
      var b := FindDay(bs, DayOf(list[i]));
      assert bs[b].day == DayOf(list[i]);
      assert forall m :: 0 <= m < |r| ==> bs[m].day != bs[b].day;
      assert k < |r| <= b;
    }
  }

  /** The date facts about the scan's buckets that the result inherits. */
  lemma {:induction false} BucketDates(list: seq<ForecastItem>, offset: int)
    ensures var bs := Collect(list, offset);
      && |bs| == |DaysIn(list)|
      && (forall k :: 0 <= k < |bs| ==> bs[k].day in DaysIn(list))
      && (forall i, j :: 0 <= i < j < |bs| ==> FirstOfDay(list, bs[i].day) < FirstOfDay(list, bs[j].day))
      && (forall i :: 0 <= i < |list| ==> FindDay(bs, DayOf(list[i])) < |bs|)
  {
    var bs := Collect(list, offset);
    BucketCount(list, offset);
    assert forall k :: 0 <= k < |bs| ==> bs[k].day in DaysIn(list) by {
      CollectDescribed(list, offset);
      BucketDaysOccur(list, offset, bs);
    }
    CollectInFirstOrder(list, offset);
    CollectCovers(list, offset);
  }

  /** Dates: the result has min(5, number of distinct dates) days, each a date
      of the list, in order of first occurrence (so without repeats), and a
      date left out comes after every date shown. */
  lemma {:induction false} DailyDates(list: seq<ForecastItem>, offset: int)
    requires DailyForecasts(list, offset).Some?
    ensures var r := DailyForecasts(list, offset).value;
      && |r| == Min(MaxDays, |DaysIn(list)|)
      && (forall k :: 0 <= k < |r| ==> r[k].day in DaysIn(list))
      && (forall i, j :: 0 <= i < j < |r| ==> FirstOfDay(list, r[i].day) < FirstOfDay(list, r[j].day))
      && (forall i, k :: 0 <= i < |list| && 0 <= k < |r| && (forall m :: 0 <= m < |r| ==> r[m].day != DayOf(list[i])) ==>
            |r| == MaxDays && FirstOfDay(list, r[k].day) < FirstOfDay(list, DayOf(list[i])))
  {
    ResultBuckets(list, offset);
    BucketDates(list, offset);
    DatesFromBuckets(list, DailyForecasts(list, offset).value, Collect(list, offset));
  }

  /** Temperatures of one bucket, from the pooled values of its date. */
  lemma {:induction false} BucketTemperatures(list: seq<ForecastItem>, offset: int, b: Bucket, s: DailySummary, first: ForecastItem)
    requires Describes(list, offset, b)
    requires |b.temps| > 0
    requires Summarize(b, first) == Some(s)
    ensures forall j :: 0 <= j < |list| && DayOf(list[j]) == s.day ==>
              s.minTemp <= list[j].tempMin && s.minTemp <= list[j].tempMax &&
              list[j].tempMin <= s.maxTemp && list[j].tempMax <= s.maxTemp
    ensures exists j :: 0 <= j < |list| && DayOf(list[j]) == s.day && (s.minTemp == list[j].tempMin || s.minTemp == list[j].tempMax)
    ensures exists j :: 0 <= j < |list| && DayOf(list[j]) == s.day && (s.maxTemp == list[j].tempMin || s.maxTemp == list[j].tempMax)
  {
    var p := Pool(list, b.day);
    PoolMembers(list, b.day);
    assert s.minTemp == MinOf(p) && s.maxTemp == MaxOf(p);
    forall j | 0 <= j < |list| && DayOf(list[j]) == s.day
      ensures s.minTemp <= list[j].tempMin && s.minTemp <= list[j].tempMax
      ensures list[j].tempMin <= s.maxTemp && list[j].tempMax <= s.maxTemp
    {
      assert list[j].tempMin in p && list[j].tempMax in p;
    }
  }

  /** Temperatures: each day's `minTemp` and `maxTemp` bound every
      `temp_min`/`temp_max` of that date's items and are attained by one of them. */
  lemma {:induction false} DailyTemperatures(list: seq<ForecastItem>, offset: int)
    requires DailyForecasts(list, offset).Some?
    ensures var r := DailyForecasts(list, offset).value;
      forall k :: 0 <= k < |r| ==>
        && r[k].minTemp <= r[k].maxTemp
        && (forall j :: 0 <= j < |list| && DayOf(list[j]) == r[k].day ==>
              r[k].minTemp <= list[j].tempMin && r[k].minTemp <= list[j].tempMax &&
              list[j].tempMin <= r[k].maxTemp && list[j].tempMax <= r[k].maxTemp)
        && (exists j :: 0 <= j < |list| && DayOf(list[j]) == r[k].day &&
              (r[k].minTemp == list[j].tempMin || r[k].minTemp == list[j].tempMax))
        && (exists j :: 0 <= j < |list| && DayOf(list[j]) == r[k].day &&
              (r[k].maxTemp == list[j].tempMin || r[k].maxTemp == list[j].tempMax))
  {
    var r := DailyForecasts(list, offset).value;
    var bs := Collect(list, offset);
    CollectDescribed(list, offset);
    ResultBuckets(list, offset);
    forall k | 0 <= k < |r|
      ensures forall j :: 0 <= j < |list| && DayOf(list[j]) == r[k].day ==>
              r[k].minTemp <= list[j].tempMin && r[k].minTemp <= list[j].tempMax &&
              list[j].tempMin <= r[k].maxTemp && list[j].tempMax <= r[k].maxTemp
      ensures exists j :: (0 <= j < |list| && DayOf(list[j]) == r[k].day &&
                           (r[k].minTemp == list[j].tempMin || r[k].minTemp == list[j].tempMax))
      ensures exists j :: (0 <= j < |list| && DayOf(list[j]) == r[k].day &&
                           (r[k].maxTemp == list[j].tempMin || r[k].maxTemp == list[j].tempMax))
    {
      assert Describes(list, offset, bs[k]);
      BucketTemperatures(list, offset, bs[k], r[k], list[0]);
    }
  }

  /** Icon and description: taken from the first midday item of the day,
      unless the day has none or that string is empty, in which case they come
      from the first item of the whole list, whatever its date. */
  lemma {:induction false} DailyConditions(list: seq<ForecastItem>, offset: int)
    requires DailyForecasts(list, offset).Some?
    ensures var r := DailyForecasts(list, offset).value;
      forall k :: 0 <= k < |r| ==>
        var i := FirstMiddayOfDay(list, r[k].day, offset);
        && (i < |list| ==> |list[i].weather| > 0)
        && (i < |list| && list[i].weather[0].icon != "" ==> r[k].icon == list[i].weather[0].icon)
        && (i < |list| && list[i].weather[0].description != "" ==> r[k].description == list[i].weather[0].description)
        && (i == |list| || list[i].weather[0].icon == "" ==>
              |list[0].weather| > 0 && r[k].icon == list[0].weather[0].icon)
        && (i == |list| || list[i].weather[0].description == "" ==>
              |list[0].weather| > 0 && r[k].description == list[0].weather[0].description)
  {
    var r := DailyForecasts(list, offset).value;
    var bs := Collect(list, offset);
    CollectDescribed(list, offset);
    ResultBuckets(list, offset);
    forall k | 0 <= k < |r|
      ensures r[k].day == bs[k].day
      ensures bs[k].midday == MiddayWeather(list, r[k].day, offset)
      ensures bs[k].midday != Some([])
    {
      assert Describes(list, offset, bs[k]);
    }
  }

  /** `getDailyForecasts` only throws on items without weather entries: when every
      item has one, the aggregation succeeds. */
  lemma {:induction false} NoFailureWithWeather(list: seq<ForecastItem>, offset: int)
    requires forall j :: 0 <= j < |list| ==> |list[j].weather| > 0
    ensures DailyForecasts(list, offset).Some?
  {
    var bs := Collect(list, offset);
    CollectDescribed(list, offset);
    forall k | 0 <= k < |bs| ensures bs[k].midday != Some([]) {
      assert Describes(list, offset, bs[k]);
      var i := FirstMiddayOfDay(list, bs[k].day, offset);
      if i < |list| {
        assert |list[i].weather| > 0;
      }
    }
    if |bs| > 0 {
      assert |list[0].weather| > 0;
    }
  }

  /** Date `d` makes `getDailyForecasts` throw: its first midday item has no
      weather entry (the scan reads `weather[0].icon`), or its icon or
      description falls back to `list[0]`, which has none. */
  predicate DayThrows(list: seq<ForecastItem>, d: int, offset: int)
    requires |list| > 0
  {
    var i := FirstMiddayOfDay(list, d, offset);
    if i < |list| then
      |list[i].weather| == 0 ||
      ((list[i].weather[0].icon == "" || list[i].weather[0].description == "") && |list[0].weather| == 0)
    else |list[0].weather| == 0
  }

  /** A bucket fails, in the scan or in its summary, exactly when its date throws. */
  lemma {:induction false} BucketThrows(list: seq<ForecastItem>, offset: int, b: Bucket)
    requires |list| > 0 && |b.temps| > 0
    requires b.midday == MiddayWeather(list, b.day, offset)
    ensures b.midday == Some([]) || Summarize(b, list[0]).None? <==> DayThrows(list, b.day, offset)
  {
  }

  /** `getDailyForecasts` throws exactly when some date of the list throws,
      shown or not: the scan reads every item, and the `map` runs over every
      date before `slice(0, 5)` drops any. */
  lemma {:induction false} DailyFailure(list: seq<ForecastItem>, offset: int)
    ensures DailyForecasts(list, offset).None? <==>
            exists j :: 0 <= j < |list| && DayThrows(list, DayOf(list[j]), offset)
  {
    var bs := Collect(list, offset);
    CollectDescribed(list, offset);
    if DailyForecasts(list, offset).None? {
      var k: int;
      if !MiddayReadable(bs) {
        k :| 0 <= k < |bs| && bs[k].midday == Some([]);
      } else {
        k :| 0 <= k < |bs| && Summarize(bs[k], list[0]).None?;
      }
      assert Describes(list, offset, bs[k]);
      var j := FirstOfDay(list, bs[k].day);
      BucketThrows(list, offset, bs[k]);
      assert DayThrows(list, DayOf(list[j]), offset);
    } else {
      CollectCovers(list, offset);
      forall j | 0 <= j < |list| ensures !DayThrows(list, DayOf(list[j]), offset) {
        var k := FindDay(bs, DayOf(list[j]));
        assert Describes(list, offset, bs[k]);
        BucketThrows(list, offset, bs[k]);
        assert bs[k].midday != Some([]);
      }
    }
  }

  /** Scanning items of new dates never touches the buckets already built. */
  lemma {:induction false} CollectExtends(list: seq<ForecastItem>, more: seq<ForecastItem>, offset: int)
    requires forall j :: 0 <= j < |more| ==> DayOf(more[j]) !in DaysIn(list)
    ensures |Collect(list, offset)| <= |Collect(list + more, offset)|
    ensures Collect(list + more, offset)[..|Collect(list, offset)|] == Collect(list, offset)
    decreases |more|
  {
    if |more| == 0 {
      assert list + more == list;
    } else {
      var m0 := more[..|more| - 1];
      var y := more[|more| - 1];
      assert list + more == (list + m0) + [y];
      assert (list + more)[..|list + more| - 1] == list + m0;
      CollectExtends(list, m0, offset);
      var bs := Collect(list, offset);
      var bs0 := Collect(list + m0, offset);
      assert forall k :: 0 <= k < |bs| ==> bs[k].day != DayOf(y) by {
        CollectDescribed(list, offset);
        BucketDaysOccur(list, offset, bs);
        assert DayOf(y) !in DaysIn(list);
      }
      FindPastPrefix(bs0, bs, DayOf(y));
      AddKeepsPrefix(bs0, y, offset, |bs|);
    }
  }

  /** A date none of the first buckets has is found, if at all, after them. */
  lemma {:induction false} FindPastPrefix(bs0: seq<Bucket>, bs: seq<Bucket>, d: int)
    requires |bs| <= |bs0| && bs0[..|bs|] == bs
    requires forall k :: 0 <= k < |bs| ==> bs[k].day != d
    ensures FindDay(bs0, d) >= |bs|
  {
    assert forall k :: 0 <= k < |bs| ==> bs0[k] == bs[k];
  }

  /** A scan step for a date past the first `n` buckets leaves those buckets alone. */
  lemma {:induction false} AddKeepsPrefix(bs: seq<Bucket>, x: ForecastItem, offset: int, n: nat)
    requires n <= |bs| && FindDay(bs, DayOf(x)) >= n
    ensures n <= |Add(bs, x, offset)| && Add(bs, x, offset)[..n] == bs[..n]
  {
  }

  /** Summarising a prefix of the buckets gives a prefix of the summaries. */
  lemma {:induction false} SummarizePrefix(bs: seq<Bucket>, n: nat, list: seq<ForecastItem>)
    requires n <= |bs|
    requires forall k :: 0 <= k < |bs| ==> |bs[k].temps| > 0
    requires |bs| > 0 ==> |list| > 0
    requires SummarizeAll(bs, list).Some?
    ensures SummarizeAll(bs[..n], list).Some?
    ensures SummarizeAll(bs[..n], list).value == SummarizeAll(bs, list).value[..n]
  {
    var all := SummarizeAll(bs, list).value;
    var p := bs[..n];
    assert forall k :: 0 <= k < |p| ==> p[k] == bs[k];
    var pre := SummarizeAll(p, list).value;
    assert |pre| == n;
    forall k | 0 <= k < n ensures pre[k] == all[k] {
      assert Summarize(bs[k], list[0]) == Some(all[k]);
    }
  }

  /** `SummarizeAll` reads nothing of the list but its first item. */
  lemma {:induction false} SameFirstSummaries(bs: seq<Bucket>, a: seq<ForecastItem>, b: seq<ForecastItem>)
    requires forall k :: 0 <= k < |bs| ==> |bs[k].temps| > 0
    requires |bs| > 0 ==> |a| > 0 && |b| > 0 && a[0] == b[0]
    ensures SummarizeAll(bs, a) == SummarizeAll(bs, b)
  {
    if |bs| > 0 {
      SameFirstSummaries(bs[1..], a, b);
    }
  }

  /** Appending items of new dates leaves every summary already shown as it
      was: the old result is a prefix of the new one. */
  lemma {:induction false} AppendingNewDates(list: seq<ForecastItem>, more: seq<ForecastItem>, offset: int)
    requires forall j :: 0 <= j < |more| ==> DayOf(more[j]) !in DaysIn(list)
    requires DailyForecasts(list + more, offset).Some?
    ensures DailyForecasts(list, offset).Some?
    ensures var r := DailyForecasts(list, offset).value;
            var r' := DailyForecasts(list + more, offset).value;
            |r| <= |r'| && r == r'[..|r|]
  {
    if |list| == 0 {
      assert DailyForecasts(list, offset) == Some([]);
    } else {
      var l' := list + more;
      var bs := Collect(list, offset);
      var bs' := Collect(l', offset);
      assert |bs| <= |bs'| && bs'[..|bs|] == bs by {
        CollectExtends(list, more, offset);
      }
      assert MiddayReadable(bs') && SummarizeAll(bs', l').Some?;
      assert MiddayReadable(bs) by {
        forall k | 0 <= k < |bs| ensures bs[k].midday != Some([]) {
          assert bs[k] == bs'[k];
        }
      }
      var all' := SummarizeAll(bs', l').value;
      assert SummarizeAll(bs, list).Some? && SummarizeAll(bs, list).value == all'[..|bs|] by {
        SummarizePrefix(bs', |bs|, l');
        assert l'[0] == list[0];
        SameFirstSummaries(bs, l', list);
      }
      KeptPrefix(SummarizeAll(bs, list).value, all');
    }
  }

  /** Cutting a sequence and its extension to at most `MaxDays` elements
      keeps the one a prefix of the other. */
  lemma {:induction false} KeptPrefix(all: seq<DailySummary>, all': seq<DailySummary>)
    requires |all| <= |all'| && all == all'[..|all|]
    ensures var r := all[..Min(MaxDays, |all|)];
            var r' := all'[..Min(MaxDays, |all'|)];
            |r| <= |r'| && r == r'[..|r|]
  {
  }
}

=== FILE: debounce.dfy ===
/** The `debounce` helper behind the suggestion box, as a one-slot timer
    state machine: a call clears any pending timer and arms a new one for
    `Delay` milliseconds with its arguments, `cancel` clears the pending
    timer, and time passing fires the pending call. */
module Debounce {
  import opened Js

  /** The delay, in milliseconds, used for the suggestion fetch. */
  const Delay := 300

  /** An armed `setTimeout`: the arguments it will call with and when it fires. */
  datatype Timer<A> = Timer(args: A, due: int)

  /** What reaches the debounced function: a call, `cancel()`, or the clock
      reaching `at` with nothing else happening. Times are in milliseconds. */
  datatype Event<A> = Call(at: int, args: A) | Cancel(at: int) | Tick(at: int)

  /** The closure's `timeout` variable, and the arguments of every invocation
      that has fired so far, in order. */
  datatype State<A> = State(slot: Option<Timer<A>>, fired: seq<A>)

  function Start<A>(): State<A>
  {
    State(None, [])
  }

  /** The clock reaches `now`: a pending timer that is due fires and the slot
      empties (`timeout = null` after the call). */
  function Elapse<A>(s: State<A>, now: int): (r: State<A>)
    ensures r.slot.None? || r.slot == s.slot
    ensures r.fired == s.fired || (s.slot.Some? && r.fired == s.fired + [s.slot.value.args])
    ensures s.slot.Some? && s.slot.value.due <= now <==> r.fired != s.fired
    // A timer that fires leaves the slot empty, so it cannot fire twice; otherwise nothing changes.
    ensures s.slot.Some? && s.slot.value.due <= now ==> r.slot.None?
    ensures !(s.slot.Some? && s.slot.value.due <= now) ==> r == s
  {
    match s.slot
    case Some(t) => if t.due <= now then State(None, s.fired + [t.args]) else s
    case None => s
  }

  /** One event. A timer that is due by the event's time fires first. */
  function Step<A>(s: State<A>, e: Event<A>): (r: State<A>)
    ensures e.Call? ==> r.slot == Some(Timer(e.args, e.at + Delay))
    ensures e.Cancel? ==> r.slot.None?
    ensures r.fired == Elapse(s, e.at).fired
    // A tick only lets time pass: a timer not yet due stays armed.
    ensures e.Tick? ==> r == Elapse(s, e.at)
  {
    var s' := Elapse(s, e.at);
    match e
    case Call(at, args) => State(Some(Timer(args, at + Delay)), s'.fired)
    case Cancel(_) => State(None, s'.fired)
    case Tick(_) => s'
  }

  function Run<A>(s: State<A>, es: seq<Event<A>>): State<A>
    decreases |es|
  {
    if |es| == 0 then s else Run(Step(s, es[0]), es[1..])
  }

  /** Index of the last call among the events, or -1 when there is none. */
  function LastCall<A>(es: seq<Event<A>>): (i: int)
    ensures -1 <= i < |es|
    ensures i >= 0 ==> es[i].Call?
    ensures forall j :: i < j < |es| ==> !es[j].Call?
    decreases |es|
  {
    if |es| == 0 then -1
    else if es[|es| - 1].Call? then |es| - 1
    else LastCall(es[..|es| - 1])
  }

  /** Number of calls among the events. */
  function Calls<A>(es: seq<Event<A>>): nat
    decreases |es|
  {
    if |es| == 0 then 0 else (if es[0].Call? then 1 else 0) + Calls(es[1..])
  }

  // ---------------------------------------------------------------------
  // Lemmas
  // ---------------------------------------------------------------------

  /** Running two stretches of events is running their concatenation. */
  lemma {:induction false} RunAppend<A>(s: State<A>, a: seq<Event<A>>, b: seq<Event<A>>)
    ensures Run(s, a + b) == Run(Run(s, a), b)
    decreases |a|
  {
    if |a| == 0 {
      assert a + b == b;
    } else {
      assert (a + b)[0] == a[0];
      assert (a + b)[1..] == a[1..] + b;
      assert Run(s, a + b) == Run(Step(s, a[0]), a[1..] + b);
      RunAppend(Step(s, a[0]), a[1..], b);
    }
  }

  /** Firing only ever appends. */
  lemma {:induction false} FiredGrows<A>(s: State<A>, es: seq<Event<A>>)
    ensures |s.fired| <= |Run(s, es).fired| && Run(s, es).fired[..|s.fired|] == s.fired
    decreases |es|
  {
    if |es| > 0 {
      FiredGrows(Step(s, es[0]), es[1..]);
    }
  }

  /** At most one invocation is pending, and it carries the arguments of the
      latest call and fires `Delay` after it; a `cancel` after the latest call
      leaves nothing pending. */
  lemma {:induction false} PendingIsLatest<A>(s: State<A>, es: seq<Event<A>>)
    ensures var r := Run(s, es);
            var i := LastCall(es);
            && (r.slot.Some? && i >= 0 ==> r.slot.value == Timer(es[i].args, es[i].at + Delay))
            && (r.slot.Some? && i < 0 ==> r.slot == s.slot)
            && (r.slot.Some? ==> forall j :: i < j < |es| ==> !es[j].Cancel?)
    decreases |es|
  {
    if |es| > 0 {
      var init := es[..|es| - 1];
      var e := es[|es| - 1];
      assert es == init + [e];
      RunAppend(s, init, [e]);
      PendingIsLatest(s, init);
      assert forall j :: 0 <= j < |init| ==> init[j] == es[j];
    }
  }

  /** Each call fires at most once: the invocations that fire are no more
      than the calls, plus the one pending at the start. */
  lemma {:induction false} FiresAtMostOncePerCall<A>(s: State<A>, es: seq<Event<A>>)
    ensures |Run(s, es).fired| <= |s.fired| + Calls(es) + (if s.slot.Some? then 1 else 0)
    decreases |es|
  {
    if |es| > 0 {
      FiresAtMostOncePerCall(Step(s, es[0]), es[1..]);
    }
  }

  /** `a` is the arguments of one of the calls, or of the invocation pending in `s`. */
  ghost predicate CalledWith<A>(s: State<A>, es: seq<Event<A>>, a: A)
  {
    (s.slot.Some? && a == s.slot.value.args) ||
    (exists i :: 0 <= i < |es| && es[i].Call? && es[i].args == a)
  }

  /** Every invocation that fires carries the arguments of a call, or of the
      invocation pending at the start. */
  lemma {:induction false} FiredWereCalled<A>(s: State<A>, es: seq<Event<A>>)
    ensures forall k :: |s.fired| <= k < |Run(s, es).fired| ==> CalledWith(s, es, Run(s, es).fired[k])
    decreases |es|
  {
    FiredGrows(s, es);
    if |es| > 0 {
      var s1 := Step(s, es[0]);
      var r := Run(s, es);
      assert r == Run(s1, es[1..]);
      FiredWereCalled(s1, es[1..]);
      FiredGrows(s1, es[1..]);
      forall k | |s.fired| <= k < |r.fired|
        ensures CalledWith(s, es, r.fired[k])
      {
        if k >= |s1.fired| {
          assert CalledWith(s1, es[1..], r.fired[k]);
          if s1.slot.Some? && r.fired[k] == s1.slot.value.args {
            if es[0].Call? {
              assert es[0].args == r.fired[k];
            }
          } else {
            var i :| 0 <= i < |es[1..]| && es[1..][i].Call? && es[1..][i].args == r.fired[k];
            assert es[i + 1] == es[1..][i];
          }
        } else {
          assert r.fired[k] == s1.fired[k];
        }
      }
    }
  }

  /** After `cancel`, nothing fires until the next call. */
  lemma {:induction false} NothingFiresAfterCancel<A>(s: State<A>, t: int, es: seq<Event<A>>)
    requires forall j :: 0 <= j < |es| ==> !es[j].Call?
    ensures Run(Step(s, Cancel(t)), es) == State(None, Step(s, Cancel(t)).fired)
    decreases |es|
  {
    if |es| > 0 {
      var c := Step(s, Cancel(t));
      assert Step(c, es[0]) == c;
      assert forall j :: 0 <= j < |es[1..]| ==> es[1..][j] == es[j + 1];
      NothingFiresAfterCancel(s, t, es[1..]);
    }
  }

  /** Ticks before the due time leave a pending timer armed: nothing changes. */
  lemma {:induction false} TicksBeforeDue<A>(s: State<A>, es: seq<Event<A>>)
    requires s.slot.Some?
    requires forall j :: 0 <= j < |es| ==> es[j].Tick? && es[j].at < s.slot.value.due
    ensures Run(s, es) == s
    decreases |es|
  {
    if |es| > 0 {
      assert Step(s, es[0]) == s;
      assert forall j :: 0 <= j < |es[1..]| ==> es[1..][j] == es[j + 1];
      TicksBeforeDue(s, es[1..]);
    }
  }

  /** A pending timer survives ticks before its due time and fires, with its
      arguments, at the first event at or after that time, whatever it is. */
  lemma {:induction false} PendingFiresWhenDue<A>(s: State<A>, es: seq<Event<A>>, e: Event<A>)
    requires s.slot.Some?
    requires forall j :: 0 <= j < |es| ==> es[j].Tick? && es[j].at < s.slot.value.due
    requires e.at >= s.slot.value.due
    ensures Run(s, es + [e]).fired == s.fired + [s.slot.value.args]
  {
    RunAppend(s, es, [e]);
    TicksBeforeDue(s, es);
    assert Run(s, es + [e]) == Run(Step(s, e), []);
  }

  /** The calls of a burst follow each other by less than `Delay`. */
  predicate Burst<A>(es: seq<Event<A>>)
  {
    && |es| > 0
    && (forall j :: 0 <= j < |es| ==> es[j].Call?)
    && (forall j :: 0 < j < |es| ==> es[j - 1].at <= es[j].at < es[j - 1].at + Delay)
  }

  /** During a burst nothing fires, and afterwards only the last call is pending. */
  lemma {:induction false} BurstArmsLast<A>(s: State<A>, es: seq<Event<A>>)
    requires Burst(es)
    requires s.slot.None? || es[0].at < s.slot.value.due
    ensures Run(s, es) == State(Some(Timer(es[|es| - 1].args, es[|es| - 1].at + Delay)), s.fired)
    decreases |es|
  {
    var s1 := Step(s, es[0]);
    if |es| > 1 {
      var rest := es[1..];
      assert forall j :: 0 <= j < |rest| ==> rest[j] == es[j + 1];
      assert Burst(rest);
      BurstArmsLast(s1, rest);
    }
  }

  /** Typing a burst and then pausing fires the callback once, with the last
      arguments: the debouncing the suggestion box relies on. */
  lemma {:induction false} BurstFiresOnce<A>(es: seq<Event<A>>, pause: int)
    requires Burst(es)
    requires pause >= es[|es| - 1].at + Delay
    ensures Run(Start(), es + [Tick(pause)]).fired == [es[|es| - 1].args]
  {
    RunAppend(Start(), es, [Tick(pause)]);
    BurstArmsLast(Start(), es);
  }

  /** The effect's cleanup cancels before each new call; since a call clears
      the pending timer anyway, the pair acts as the call alone. */
  lemma {:induction false} CleanupThenCall<A>(s: State<A>, t: int, args: A)
    ensures Run(s, [Cancel(t), Call(t, args)]) == Step(s, Call(t, args))
  {
    var es := [Cancel(t), Call(t, args)];
    assert es[1..][1..] == [];
    assert Run(s, es) == Run(Step(s, Cancel(t)), [Call(t, args)]);
    assert Run(Step(s, Cancel(t)), [Call(t, args)]) == Step(Step(s, Cancel(t)), Call(t, args));
  }
}

=== FILE: forecast_route.dfy ===
/** The forecast route handler (`GET /api/forecast`): checks the server key,
    resolves coordinates (taken from the query, or looked up by city name
    through the provider's direct geocoding), fetches the 5-day/3-hour
    forecast and relays it, or turns each failure into a JSON error. */
module ForecastRoute {
  import opened Js
  import opened Http

  /** The query parameters the handler reads; `None` is an absent parameter. */
  datatype Query = Query(city: Option<string>, lat: Option<string>, lon: Option<string>)

  const BadRequestMessage := "Please provide `city` or both `lat` and `lon` query params"
  const NotFoundMessage := "City not found (geocoding failed)"
  const UpstreamDefault := "Forecast API returned an error"
  const CacheControl := "s-maxage=600, stale-while-revalidate=60"
  /** What V8 throws for `geoJson[0].lat` when the first element is null. */
  const NullElementMessage := "Cannot read properties of null (reading 'lat')"
  const GeocodeLimit := 1
  const Units := "metric"

  /** `err.message ?? 'Unknown server error'` in the `catch` clause. */
  function CatchMessage(t: Thrown): (m: Json)
    ensures t.ErrorObject? ==> m == JString(t.message)
    // A thrown non-Error whose `message` is null or undefined gets the default.
    ensures t.OtherValue? && (t.messageProp.None? || t.messageProp.value == JNull) ==> m == JString(UnknownServerError)
    ensures t.OtherValue? && t.messageProp.Some? && t.messageProp.value != JNull ==> m == t.messageProp.value
  {
    match t
    case ErrorObject(m) => JString(m)
    case OtherValue(p) => OrElse(p, JString(UnknownServerError))
  }

  /** The response the `catch` clause builds. */
  function Failure(t: Thrown): Response
  {
    Response(500, ErrorBody(CatchMessage(t)), None)
  }

  /** The error body relayed for a non-ok forecast reply; it is never one of
      the handler's own `{ error }` bodies, as it also carries `details`. */
  function UpstreamError(body: Json): (e: Json)
    ensures forall m :: e != ErrorBody(m)
    // `details` is the provider's body; `error` is its `message`, unless that is null or undefined.
    ensures e.JObject? && e.fields.Keys == {"error", "details"} && e.fields["details"] == body
    ensures Prop(body, "message").Some? && Prop(body, "message").value != JNull ==>
              e.fields["error"] == Prop(body, "message").value
    ensures Prop(body, "message").None? || Prop(body, "message").value == JNull ==>
              e.fields["error"] == JString(UpstreamDefault)
  {
    var e := JObject(map["error" := OrElse(Prop(body, "message"), JString(UpstreamDefault)), "details" := body]);
    assert forall m :: "details" !in ErrorBody(m).fields;
    e
  }

  /** The forecast fetch and what the handler makes of its reply. */
  function Relay(fc: Reply): (r: Response)
    ensures r.cacheControl.Some? <==> fc.Received? && IsOk(fc.status)
    ensures r.cacheControl.Some? ==> r == Response(200, fc.body, Some(CacheControl))
    ensures fc.Received? && !IsOk(fc.status) ==> r.status == fc.status && !IsOk(r.status)
    ensures fc.Rejected? ==> r.status == 500
  {
    match fc
    case Rejected(t) => Failure(t)
    case Received(status, body) =>
      if !IsOk(status) then Response(status, UpstreamError(body), None)
      else Response(200, body, Some(CacheControl))
  }

  /** True when the geocoding reply cannot give coordinates: a non-ok status,
      a body that is not an array, or an empty array. */
  predicate GeocodeMiss(geo: Reply)
  {
    geo.Received? && (!IsOk(geo.status) || !geo.body.JArray? || |geo.body.elems| == 0)
  }

  /** The first geocoding hit, when there is one. */
  function FirstHit(geo: Reply): (e: Option<Json>)
    ensures e.Some? <==> geo.Received? && !GeocodeMiss(geo)
    ensures e.Some? ==> e.value == geo.body.elems[0]
  {
    if geo.Received? && !GeocodeMiss(geo) then Some(geo.body.elems[0]) else None
  }

  /** `GET(request)`. `geo` and `fc` are the provider's replies to the
      geocoding and forecast calls, used only if the handler makes those
      calls; `show` is JavaScript's number-to-string conversion. */
  function Get(q: Query, apiKey: Option<string>, geo: Reply, fc: Reply, show: real -> string): (x: Exchange)
    // The key check comes before anything else.
    ensures !Present(apiKey) ==>
              x == Exchange(Response(500, ErrorBody(JString(MissingKeyMessage)), None), [])
    // Every provider call carries the key, at most one lookup is made and it precedes the forecast call.
    ensures forall c :: c in x.calls ==> Present(apiKey) && c.key == apiKey.value
    ensures |x.calls| <= 2
    ensures forall i :: 0 <= i < |x.calls| && x.calls[i].Geocode? ==>
              i == 0 && q.city.Some? && x.calls[i] == Geocode(q.city.value, GeocodeLimit, apiKey.value)
    ensures forall i :: 0 <= i < |x.calls| && x.calls[i].Forecast? ==> i == |x.calls| - 1 && x.calls[i].units == Units
    // Coordinates in the query win over the city name and are used verbatim.
    ensures Present(apiKey) && Present(q.lat) && Present(q.lon) ==>
              x.calls == [Forecast(q.lat.value, q.lon.value, Units, apiKey.value)]
    // A request with neither coordinates nor a city name.
    ensures x.response == Response(400, ErrorBody(JString(BadRequestMessage)), None) <==>
              Present(apiKey) && !(Present(q.lat) && Present(q.lon)) && !Present(q.city)
    ensures x.calls == [] <==> !Present(apiKey) || (!(Present(q.lat) && Present(q.lon)) && !Present(q.city))
    // Without both coordinates, a city name is always looked up first.
    ensures Present(apiKey) && !(Present(q.lat) && Present(q.lon)) && Present(q.city) ==>
              |x.calls| > 0 && x.calls[0] == Geocode(q.city.value, GeocodeLimit, apiKey.value)
    // A failed lookup ends the request.
    ensures x.response == Response(404, ErrorBody(JString(NotFoundMessage)), None) <==>
              |x.calls| == 1 && x.calls[0].Geocode? && GeocodeMiss(geo)
    // The forecast is requested only with coordinates from the query or from the first hit.
    ensures forall c :: c in x.calls && c.Forecast? ==>
              (Present(q.lat) && Present(q.lon) && c.lat == q.lat.value && c.lon == q.lon.value) ||
              (FirstHit(geo).Some? && FirstHit(geo).value != JNull &&
               Text(Prop(FirstHit(geo).value, "lat"), show) == Some(c.lat) &&
               Text(Prop(FirstHit(geo).value, "lon"), show) == Some(c.lon))
    // A successful forecast is relayed verbatim and only it is cached.
    ensures x.response.cacheControl.Some? <==> x.response.status == 200
    ensures x.response.status == 200 <==>
              |x.calls| > 0 && x.calls[|x.calls| - 1].Forecast? && fc.Received? && IsOk(fc.status)
    ensures x.response.status == 200 ==> x.response == Response(200, fc.body, Some(CacheControl))
    // A forecast is requested exactly when there are coordinates to ask for.
    ensures (|x.calls| > 0 && x.calls[|x.calls| - 1].Forecast?) <==>
              Present(apiKey) &&
              ((Present(q.lat) && Present(q.lon)) ||
               (Present(q.city) && FirstHit(geo).Some? && FirstHit(geo).value != JNull &&
                Printable(Prop(FirstHit(geo).value, "lat")) && Printable(Prop(FirstHit(geo).value, "lon"))))
    // Thrown failures: a rejected lookup or forecast fetch, or a null first hit, give 500.
    ensures |x.calls| == 1 && x.calls[0].Geocode? && geo.Rejected? ==>
              x.response == Response(500, ErrorBody(CatchMessage(geo.thrown)), None)
    ensures |x.calls| == 1 && x.calls[0].Geocode? && FirstHit(geo).Some? && FirstHit(geo).value == JNull ==>
              x.response == Response(500, ErrorBody(JString(NullElementMessage)), None)
    // `String(geoJson[0].lat)` (or `.lon`) throws for an object with its own `toString` key.
    ensures |x.calls| == 1 && x.calls[0].Geocode? && FirstHit(geo).Some? && FirstHit(geo).value != JNull &&
            !(Printable(Prop(FirstHit(geo).value, "lat")) && Printable(Prop(FirstHit(geo).value, "lon"))) ==>
              x.response == Response(500, ErrorBody(JString(NoPrimitiveMessage)), None)
    ensures |x.calls| > 0 && x.calls[|x.calls| - 1].Forecast? && fc.Rejected? ==>
              x.response == Response(500, ErrorBody(CatchMessage(fc.thrown)), None)
    // Forecast errors keep the provider's status.
    ensures |x.calls| > 0 && x.calls[|x.calls| - 1].Forecast? && fc.Received? && !IsOk(fc.status) ==>
              x.response == Response(fc.status, UpstreamError(fc.body), None)
  {
    if !Present(apiKey) then
      Exchange(Response(500, ErrorBody(JString(MissingKeyMessage)), None), [])
    else
      var key := apiKey.value;
      if Present(q.lat) && Present(q.lon) then
        Exchange(Relay(fc), [Forecast(q.lat.value, q.lon.value, Units, key)])
      else if !Present(q.city) then
        Exchange(Response(400, ErrorBody(JString(BadRequestMessage)), None), [])
      else
        var lookup := Geocode(q.city.value, GeocodeLimit, key);
        match geo
        case Rejected(t) => Exchange(Failure(t), [lookup])
        case Received(_, body) =>
          if GeocodeMiss(geo) then
            Exchange(Response(404, ErrorBody(JString(NotFoundMessage)), None), [lookup])
          else if body.elems[0] == JNull then
            Exchange(Failure(ErrorObject(NullElementMessage)), [lookup])
          else
            var lat := Text(Prop(body.elems[0], "lat"), show);
            var lon := Text(Prop(body.elems[0], "lon"), show);
            if lat.None? || lon.None? then Exchange(Failure(ErrorObject(NoPrimitiveMessage)), [lookup])
            else Exchange(Relay(fc), [lookup, Forecast(lat.value, lon.value, Units, key)])
  }

  /** The handler does not validate geocoded coordinates: a first hit with no
      `lat` or `lon` at all is still forwarded, as the text "undefined". */
  lemma {:induction false} UnvalidatedCoordinates(city: string, key: string, fc: Reply, show: real -> string)
    requires city != "" && key != ""
    ensures var geo := Received(200, JArray([JObject(map[])]));
            Get(Query(Some(city), None, None), Some(key), geo, fc, show).calls ==
              [Geocode(city, GeocodeLimit, key), Forecast("undefined", "undefined", Units, key)]
  {
  }

  /** A first hit whose `lat` is an object with its own `toString` key cannot
      be turned into text: the handler answers 500 with V8's message and never
      asks for the forecast. */
  lemma {:induction false} UnprintableCoordinateFails(city: string, key: string, fc: Reply, show: real -> string)
    requires city != "" && key != ""
    ensures var hit := JObject(map["lat" := JObject(map["toString" := JNumber(1.0)]), "lon" := JNumber(0.0)]);
            Get(Query(Some(city), None, None), Some(key), Received(200, JArray([hit])), fc, show) ==
              Exchange(Response(500, ErrorBody(JString(NoPrimitiveMessage)), None), [Geocode(city, GeocodeLimit, key)])
  {
  }

  /** An empty `lat` counts as absent: the city is looked up instead. */
  lemma {:induction false} EmptyCoordinateIgnored(city: string, lon: string, key: string, geo: Reply, fc: Reply, show: real -> string)
    requires city != "" && key != ""
    ensures var x := Get(Query(Some(city), Some(""), Some(lon)), Some(key), geo, fc, show);
            |x.calls| > 0 && x.calls[0] == Geocode(city, GeocodeLimit, key)
  {
  }
}

=== FILE: geocoding_route.dfy ===
/** The suggestion route handler (`GET /api/geocoding`): checks the server
    key, answers short queries with an empty list, asks the provider's direct
    geocoding for up to ten places and relays them, or turns a failure into a
    JSON error. */
module GeocodingRoute {
  import opened Js
  import opened Http

  /** Queries shorter than this are answered with `[]` without a lookup. */
  const MinCityLength := 3
  const SuggestionLimit := 10
  const SuggestionDefault := "Geocoding suggestion failed"
  const CacheControl := "s-maxage=3600"

  /** `err instanceof Error ? err.message : 'Unknown server error'`. */
  function CatchMessage(t: Thrown): (m: string)
    ensures t.ErrorObject? ==> m == t.message
    ensures t.OtherValue? ==> m == UnknownServerError
  {
    match t
    case ErrorObject(msg) => msg
    case OtherValue(_) => UnknownServerError
  }

  /** The reply carries a usable suggestion list: an ok status and an array body. */
  predicate Listed(geo: Reply)
  {
    geo.Received? && IsOk(geo.status) && geo.body.JArray?
  }

  /** `GET(request)`; `geo` is the provider's reply, used only if the lookup is made. */
  function Get(city: Option<string>, apiKey: Option<string>, geo: Reply): (x: Exchange)
    // The key check comes first, before the length test.
    ensures !Present(apiKey) ==>
              x == Exchange(Response(500, ErrorBody(JString(MissingKeyMessage)), None), [])
    // Short or absent queries: an uncached empty list and no lookup.
    ensures Present(apiKey) && (city.None? || |city.value| < MinCityLength) ==>
              x == Exchange(Response(200, JArray([]), None), [])
    // Otherwise exactly one lookup, for the query as given, with limit 10.
    ensures x.calls != [] <==> Present(apiKey) && city.Some? && |city.value| >= MinCityLength
    ensures x.calls != [] ==> x.calls == [Geocode(city.value, SuggestionLimit, apiKey.value)]
    // Only a listed reply is cached, and it is relayed verbatim.
    ensures x.response.cacheControl.Some? <==> x.calls != [] && Listed(geo)
    ensures x.response.cacheControl.Some? ==> x.response == Response(200, geo.body, Some(CacheControl))
    // A failed lookup whose body is an empty array still answers 200 with it.
    ensures x.calls != [] && geo.Received? && !IsOk(geo.status) && geo.body == JArray([]) ==>
              x.response == Response(200, JArray([]), None)
    // Any other failed lookup: `{ error }` with the provider's own status, even a 2xx one.
    ensures x.calls != [] && geo.Received? && !Listed(geo) && geo.body != JArray([]) ==>
              x.response.status == geo.status && x.response.cacheControl.None? &&
              x.response.body == ErrorBody(JString(
                if StringMessage(geo.body).Some? then StringMessage(geo.body).value else SuggestionDefault))
    // A thrown failure.
    ensures x.calls != [] && geo.Rejected? ==>
              x.response == Response(500, ErrorBody(JString(CatchMessage(geo.thrown))), None)
    // Every success is an array body with status 200.
    ensures x.response.status == 200 && x.response.body.JArray? ==>
              x.response.body == JArray([]) || (x.calls != [] && x.response.body == geo.body)
  {
    if !Present(apiKey) then
      Exchange(Response(500, ErrorBody(JString(MissingKeyMessage)), None), [])
    else if city.None? || |city.value| < MinCityLength then
      Exchange(Response(200, JArray([]), None), [])
    else
      var lookup := Geocode(city.value, SuggestionLimit, apiKey.value);
      match geo
      case Rejected(t) => Exchange(Response(500, ErrorBody(JString(CatchMessage(t))), None), [lookup])
      case Received(status, body) =>
        if !IsOk(status) || !body.JArray? then
          if body.JArray? && |body.elems| == 0 then
            Exchange(Response(200, body, None), [lookup])
          else
            var message := match StringMessage(body) case Some(m) => m case None => SuggestionDefault;
            Exchange(Response(status, ErrorBody(JString(message)), None), [lookup])
        else
          Exchange(Response(200, body, Some(CacheControl)), [lookup])
  }

  /** A 2xx reply whose body is not an array is reported as an error that
      keeps the 2xx status, so the browser sees it as ok. */
  lemma {:induction false} ErrorWithOkStatus(city: string, key: string)
    requires |city| >= MinCityLength && key != ""
    ensures var geo := Received(200, JObject(map["message" := JString("bad")]));
            Get(Some(city), Some(key), geo).response == Response(200, ErrorBody(JString("bad")), None)
  {
  }
}

=== FILE: http.dfy ===
/** The HTTP surface shared by the two route handlers and the browser
    component: provider replies, outbound provider calls and the responses a
    route handler builds. */
module Http {
  import opened Js

  /** A status a fetched response or a built JSON response can carry. */
  type Status = s: int | 200 <= s <= 599 witness 200

  /** `Response.ok`: the status is in the 2xx range. */
  predicate IsOk(s: int)
  {
    200 <= s <= 299
  }

  /** The outcome of `await fetch(url)` followed by `await res.json()`: either
      a status with a parsed body, or a rejection (network failure, body that
      is not JSON) that the caller's `catch` receives. */
  datatype Reply = Received(status: Status, body: Json) | Rejected(thrown: Thrown)

  /** A call to the weather provider: the direct-geocoding lookup or the
      5-day/3-hour forecast lookup, with the injected API key. */
  datatype Call =
    | Geocode(query: string, limit: nat, key: string)
    | Forecast(lat: string, lon: string, units: string, key: string)

  /** A JSON response built by `NextResponse.json`: status, body and the
      `Cache-Control` header if one was set. */
  datatype Response = Response(status: Status, body: Json, cacheControl: Option<string>)

  /** One handled request: the response and the provider calls made, in order. */
  datatype Exchange = Exchange(response: Response, calls: seq<Call>)

  const MissingKeyMessage := "Server missing OPENWEATHER_API_KEY"
  const UnknownServerError := "Unknown server error"

  /** The `{ error }` body both route handlers use for failures. */
  function ErrorBody(message: Json): Json
  {
    JObject(map["error" := message])
  }

  /** Truthiness of a `string | null` value such as a query parameter or an
      environment variable. */
  predicate Present(p: Option<string>)
  {
    p.Some? && p.value != ""
  }
}

=== FILE: js.dfy ===
/** JavaScript values as the modelled code sees them: parsed JSON documents,
    `undefined`, truthiness, `String(v)`, numbers that may be NaN, and the
    values a `catch` clause can receive. */
module Js {

  /** `None` stands for `undefined` (or an absent optional value). */
  datatype Option<+T> = None | Some(value: T)

  /** A parsed JSON document, as `Response.json()` resolves it. JSON has no
      NaN or infinity, so its numbers are reals. */
  datatype Json =
    | JNull
    | JBool(b: bool)
    | JNumber(n: real)
    | JString(s: string)
    | JArray(elems: seq<Json>)
    | JObject(fields: map<string, Json>)

  /** A JavaScript number: NaN or an ordinary value. */
  datatype JsNumber = NaN | Num(value: real)

  /** What a `catch` clause receives: an `Error` and its message, or some
      other thrown value together with its `message` property, if it has one. */
  datatype Thrown = ErrorObject(message: string) | OtherValue(messageProp: Option<Json>)

  /** `v?.key` (and `v.key` when `v` is known not to be null): only objects
      carry the properties this code reads, everything else gives `undefined`. */
  function Prop(v: Json, key: string): Option<Json>
  {
    if v.JObject? && key in v.fields then Some(v.fields[key]) else None
  }

  /** JavaScript truthiness of a property value. */
  predicate Truthy(p: Option<Json>)
  {
    match p
    case None => false
    case Some(JNull) => false
    case Some(JBool(b)) => b
    case Some(JNumber(n)) => n != 0.0
    case Some(JString(s)) => s != ""
    case Some(_) => true
  }

  /** `x ?? fallback` for a property value: the value unless it is null or undefined. */
  function OrElse(p: Option<Json>, fallback: Json): (v: Json)
    ensures v == fallback || (p.Some? && v == p.value)
    ensures p.Some? && p.value != JNull ==> v == p.value
    ensures p.None? || p.value == JNull ==> v == fallback
  {
    if p.Some? && p.value != JNull then p.value else fallback
  }

  /** Joins strings with a separator, as `Array.prototype.join` does. */
  function Join(parts: seq<string>, sep: string): string
  {
    if |parts| == 0 then ""
    else if |parts| == 1 then parts[0]
    else parts[0] + sep + Join(parts[1..], sep)
  }

  /** The message of the `TypeError` V8 throws when `String(v)` finds no way
      to turn an object into a primitive. */
  const NoPrimitiveMessage := "Cannot convert object to primitive value"

  /** True when `String(v)` throws. An object with an own `toString` key holds
      data there (JSON has no functions), so that `toString` cannot be called,
      and the inherited `valueOf` returns the object itself: no primitive is
      found. An array throws when `join` meets such an element. */
  predicate Unprintable(v: Json)
    decreases v
  {
    match v
    case JObject(fields) => "toString" in fields
    case JArray(es) => exists i :: 0 <= i < |es| && Unprintable(es[i])
    case _ => false
  }

  /** `String(x)` of a property value can be computed: it is `undefined` or a
      value that does not throw. */
  predicate Printable(p: Option<Json>)
  {
    p.None? || !Unprintable(p.value)
  }

  /** `String(v)` of a JSON value; `None` when it throws. `show` is
      JavaScript's number-to-string conversion, which this model takes as
      given. Arrays print their elements joined by commas, with null
      elements printed empty. */
  function JsonText(v: Json, show: real -> string): (t: Option<string>)
    ensures t.None? <==> Unprintable(v)
    ensures v.JString? ==> t == Some(v.s)
    ensures v.JObject? && "toString" !in v.fields ==> t == Some("[object Object]")
    decreases v
  {
    match v
    case JNull => Some("null")
    case JBool(b) => Some(if b then "true" else "false")
    case JNumber(n) => Some(show(n))
    case JString(s) => Some(s)
    case JObject(fields) => if "toString" in fields then None else Some("[object Object]")
    case JArray(es) =>
      var parts := seq(|es|, i requires 0 <= i < |es| =>
                     if es[i] == JNull then Some("") else JsonText(es[i], show));
      if forall i :: 0 <= i < |parts| ==> parts[i].Some? then
        assert forall i :: 0 <= i < |es| ==> parts[i].Some? ==> !Unprintable(es[i]);
        Some(Join(seq(|parts|, i requires 0 <= i < |parts| =>
                    if parts[i].Some? then parts[i].value else ""), ","))
      else None
  }

  /** `String(x)` (or a template-literal hole) of a property value; `None`
      when it throws. */
  function Text(p: Option<Json>, show: real -> string): (t: Option<string>)
    ensures t.Some? <==> Printable(p)
    ensures p.None? ==> t == Some("undefined")
    ensures p.Some? ==> t == JsonText(p.value, show)
  {
    match p
    case None => Some("undefined")
    case Some(v) => JsonText(v, show)
  }

  /** `typeof v === 'object' && v !== null && 'message' in v && typeof v.message === 'string'`,
      returning that string. */
  function StringMessage(v: Json): (m: Option<string>)
    ensures m.Some? <==> Prop(v, "message").Some? && Prop(v, "message").value.JString?
    ensures m.Some? ==> Prop(v, "message") == Some(JString(m.value))
  {
    match Prop(v, "message")
    case Some(JString(s)) => Some(s)
    case _ => None
  }
}

=== FILE: pipeline.dfy ===
/** The browser component and the two route handlers put together: what the
    search box ends up showing for what the weather provider answers. */
module Pipeline {
  import opened Js
  import opened Http
  import ForecastRoute
  import GeocodingRoute
  import opened WeatherSearch

  /** The query parameters a forecast request carries. The city name goes
      through `encodeURIComponent` and is decoded by the server unchanged. */
  function ToQuery(req: ForecastRequest): ForecastRoute.Query
  {
    match req
    case ByCoords(lat, lon) => ForecastRoute.Query(None, Some(lat), Some(lon))
    case ByCity(name) => ForecastRoute.Query(Some(name), None, None)
  }

  /** The route handler's own error bodies carry `error` (and `details`) but
      never a `message`, so the component, which reads `message`, shows its
      generic text for every failure the handler reports. */
  lemma {:induction false} GatewayErrorsShowGenericText(
    s: SearchState, q: ForecastRoute.Query, apiKey: Option<string>, geo: Reply, fc: Reply, show: real -> string)
    ensures var x := ForecastRoute.Get(q, apiKey, geo, fc, show);
            var r := Complete(s, Received(x.response.status, x.response.body), show);
            !IsOk(x.response.status) ==> r.error == FetchFailedMessage && r.data.None?
  {
    var x := ForecastRoute.Get(q, apiKey, geo, fc, show);
    forall m: Json ensures StringMessage(ErrorBody(m)).None? {
      assert "message" !in ErrorBody(m).fields;
    }
    if fc.Received? {
      var u := ForecastRoute.UpstreamError(fc.body);
      assert "message" !in u.fields;
    }
  }

  /** Even when the provider explains a forecast failure in its `message`, the
      component does not show it: the handler moves that message to `error`
      and the component reads only `message`. */
  lemma {:induction false} ProviderMessageIsLost(
    s: SearchState, q: ForecastRoute.Query, apiKey: Option<string>, geo: Reply, fc: Reply, show: real -> string)
    requires fc.Received? && !IsOk(fc.status)
    requires Prop(fc.body, "message").Some? && Prop(fc.body, "message").value != JNull
    ensures var x := ForecastRoute.Get(q, apiKey, geo, fc, show);
            |x.calls| > 0 && x.calls[|x.calls| - 1].Forecast? ==>
              && x.response.status == fc.status
              && x.response.body.JObject?
              && x.response.body.fields["error"] == Prop(fc.body, "message").value
              && "message" !in x.response.body.fields
              && Complete(s, Received(x.response.status, x.response.body), show).error == FetchFailedMessage
  {
    var x := ForecastRoute.Get(q, apiKey, geo, fc, show);
    if |x.calls| > 0 && x.calls[|x.calls| - 1].Forecast? {
      var u := ForecastRoute.UpstreamError(fc.body);
      assert x.response.body == u;
      assert "message" !in u.fields;
    }
  }

  /** A search started from typed text always reaches the provider lookup
      with the trimmed text: the handler never answers it with 400. */
  lemma {:induction false} TypedSearchIsLookedUp(s: SearchState, key: string, geo: Reply, fc: Reply, show: real -> string)
    requires key != ""
    requires Submit(s, None, show).request.Some?
    ensures var x := ForecastRoute.Get(ToQuery(Submit(s, None, show).request.value), Some(key), geo, fc, show);
            x.response != Response(400, ErrorBody(JString(ForecastRoute.BadRequestMessage)), None)
    ensures var x := ForecastRoute.Get(ToQuery(Submit(s, None, show).request.value), Some(key), geo, fc, show);
            |x.calls| > 0 && x.calls[0] == Geocode(Trim(s.city), ForecastRoute.GeocodeLimit, key)
  {
  }

  /** A forecast the provider serves reaches the screen exactly when it has
      the shape the component checks for and its city line can be printed. */
  lemma {:induction false} ServedForecastIsShown(
    s: SearchState, q: ForecastRoute.Query, apiKey: Option<string>, geo: Reply, fc: Reply, show: real -> string)
    ensures var x := ForecastRoute.Get(q, apiKey, geo, fc, show);
            var r := Complete(s, Received(x.response.status, x.response.body), show);
            x.response.status == 200 ==>
              (r.data.Some? <==> ValidShape(fc.body) && !RewriteThrows(fc.body)) && (r.data.Some? ==> r.data.value == fc.body)
  {
  }

  /** End to end, the suggestions shown for a long enough text are the usable
      entries of the provider's list, in the provider's order. */
  lemma {:induction false} SuggestionsEndToEnd(text: string, key: string, items: seq<Json>, toNumber: string -> JsNumber)
    requires |text| >= MinQueryLength && key != ""
    requires forall i :: 0 <= i < |items| ==> items[i] != JNull
    ensures var x := GeocodingRoute.Get(Some(text), Some(key), Received(200, JArray(items)));
            var f := FetchSuggestions(text, Received(x.response.status, x.response.body), toNumber);
            && x.calls == [Geocode(text, GeocodingRoute.SuggestionLimit, key)]
            && f.request == Some(text)
            && f.suggestions == Keep(Parse(items, toNumber).value)
  {
  }

  /** The component and the suggestion route agree on the short-text cutoff:
      the component asks exactly when the route would look the text up. */
  lemma {:induction false} SameCutoff(text: string, key: string, reply: Reply, geo: Reply, toNumber: string -> JsNumber)
    requires key != ""
    ensures FetchSuggestions(text, reply, toNumber).request.Some? <==>
            GeocodingRoute.Get(Some(text), Some(key), geo).calls != []
  {
  }

  /** One bad entry hides the whole list: a null element makes the
      normalisation throw and the component shows no suggestions at all. */
  lemma {:induction false} NullEntryHidesAll(text: string, items: seq<Json>, toNumber: string -> JsNumber)
    requires |text| >= MinQueryLength
    requires exists i :: 0 <= i < |items| && items[i] == JNull
    ensures FetchSuggestions(text, Received(200, JArray(items)), toNumber).suggestions == []
  {
  }
}

=== FILE: weather_search.dfy ===
/** The search box component: the debounced suggestion fetch with its
    conservative normalisation, and the search controller's state
    transitions, split into the synchronous start of `handleSearch` and the
    completion that applies the forecast reply. */
module WeatherSearch {
  import opened Js
  import opened Http

  /** Texts shorter than this get no suggestions and no request. */
  const MinQueryLength := 3
  const EmptyQueryMessage := "Please enter a city name."
  const FetchFailedMessage := "Failed to fetch weather data"
  const InvalidResponseMessage := "Invalid forecast response from API"
  const UnknownFailure := "Something went wrong"

  // ---------------------------------------------------------------------
  // `String.prototype.trim`
  // ---------------------------------------------------------------------

  /** ECMAScript white space and line terminators, the characters `trim` removes. */
  const Spaces: set<char> := {
    '\t', '\n', '\U{000B}', '\U{000C}', '\r', ' ', '\U{00A0}', '\U{1680}',
    '\U{2000}', '\U{2001}', '\U{2002}', '\U{2003}', '\U{2004}', '\U{2005}',
    '\U{2006}', '\U{2007}', '\U{2008}', '\U{2009}', '\U{200A}',
    '\U{2028}', '\U{2029}', '\U{202F}', '\U{205F}', '\U{3000}', '\U{FEFF}'
  }

  predicate IsSpace(c: char)
  {
    c in Spaces
  }

  /** Number of white-space characters at the start of `s`. */
  function LeadingSpaces(s: string): (n: nat)
    ensures n <= |s|
    ensures forall i :: 0 <= i < n ==> IsSpace(s[i])
    ensures n < |s| ==> !IsSpace(s[n])
    decreases |s|
  {
    if |s| == 0 || !IsSpace(s[0]) then 0 else 1 + LeadingSpaces(s[1..])
  }

  /** Number of white-space characters at the end of `s`. */
  function TrailingSpaces(s: string): (n: nat)
    ensures n <= |s|
    ensures forall i :: |s| - n <= i < |s| ==> IsSpace(s[i])
    ensures n < |s| ==> !IsSpace(s[|s| - n - 1])
    decreases |s|
  {
    if |s| == 0 || !IsSpace(s[|s| - 1]) then 0 else 1 + TrailingSpaces(s[..|s| - 1])
  }

  /** `s` without its trailing white space. */
  function TrimEnd(t: string): (r: string)
    ensures |r| <= |t| && t[..|r|] == r
    ensures forall i :: |r| <= i < |t| ==> IsSpace(t[i])
    ensures r != "" ==> !IsSpace(r[|r| - 1])
    ensures r == "" <==> forall i :: 0 <= i < |t| ==> IsSpace(t[i])
  {
    t[..|t| - TrailingSpaces(t)]
  }

  /** `s.trim()`: `s` with white space removed from both ends. */
  function Trim(s: string): (r: string)
    ensures |r| <= |s|
    ensures r != "" ==> !IsSpace(r[0]) && !IsSpace(r[|r| - 1])
    // `r` sits in `s` right after the leading white space, followed only by white space.
    ensures LeadingSpaces(s) + |r| <= |s| && s[LeadingSpaces(s)..LeadingSpaces(s) + |r|] == r
    ensures forall i :: LeadingSpaces(s) + |r| <= i < |s| ==> IsSpace(s[i])
  {
    var a := LeadingSpaces(s);
    var r := TrimEnd(s[a..]);
    assert forall i :: a <= i < |s| ==> s[i] == s[a..][i - a];
    assert r != "" ==> r[0] == s[a];
    r
  }

  /** Trimming leaves nothing exactly when the text is all white space. */
  lemma {:induction false} TrimEmpty(s: string)
    ensures Trim(s) == "" <==> forall i :: 0 <= i < |s| ==> IsSpace(s[i])
  {
    var a := LeadingSpaces(s);
    var r := Trim(s);
    if r == "" {
      assert forall i :: 0 <= i < a ==> IsSpace(s[i]);
      assert forall i :: a <= i < |s| ==> IsSpace(s[i]);
    } else {
      assert !IsSpace(s[a]);
    }
  }

  /** Trimming twice is trimming once. */
  lemma {:induction false} TrimIdempotent(s: string)
    ensures Trim(Trim(s)) == Trim(s)
  {
    var r := Trim(s);
    if r != "" {
      assert LeadingSpaces(r) == 0;
      assert r[0..] == r;
      assert TrailingSpaces(r) == 0;
    }
  }

  // ---------------------------------------------------------------------
  // Suggestions (the debounced `fetchSuggestions` body)
  // ---------------------------------------------------------------------

  /** A normalised suggestion. `state` is `None` when the provider gave no string. */
  datatype GeoResult = GeoResult(name: string, country: string, lat: JsNumber, lon: JsNumber, state: Option<string>)

  /** A coordinate field: a number is kept, a string goes through `Number()`
      (the parameter `toNumber`), anything else is NaN. */
  function NumberField(p: Option<Json>, toNumber: string -> JsNumber): JsNumber
  {
    match p
    case Some(JNumber(n)) => Num(n)
    case Some(JString(s)) => toNumber(s)
    case _ => NaN
  }

  /** A text field: a string is kept, anything else becomes "". */
  function StringField(p: Option<Json>): string
  {
    match p
    case Some(JString(s)) => s
    case _ => ""
  }

  /** The `map` callback for one element; a null element makes it throw, which
      the caller handles. */
  function Normalize(item: Json, toNumber: string -> JsNumber): (g: GeoResult)
    requires item != JNull
    // Text fields: a string is kept as it is, anything else becomes "".
    ensures g.name != "" ==> Prop(item, "name") == Some(JString(g.name))
    ensures g.country != "" ==> Prop(item, "country") == Some(JString(g.country))
    ensures forall n :: Prop(item, "name") == Some(JString(n)) ==> g.name == n
    ensures forall c :: Prop(item, "country") == Some(JString(c)) ==> g.country == c
    ensures g.state.Some? <==> Prop(item, "state").Some? && Prop(item, "state").value.JString?
    ensures g.state.Some? ==> Prop(item, "state") == Some(JString(g.state.value))
    // Coordinates: a number is kept, a string is parsed, anything else is NaN.
    ensures Prop(item, "lat").Some? && Prop(item, "lat").value.JNumber? ==> g.lat == Num(Prop(item, "lat").value.n)
    ensures Prop(item, "lat").Some? && Prop(item, "lat").value.JString? ==> g.lat == toNumber(Prop(item, "lat").value.s)
    ensures Prop(item, "lat").None? || !(Prop(item, "lat").value.JNumber? || Prop(item, "lat").value.JString?) ==> g.lat == NaN
    ensures Prop(item, "lon").Some? && Prop(item, "lon").value.JNumber? ==> g.lon == Num(Prop(item, "lon").value.n)
    ensures Prop(item, "lon").Some? && Prop(item, "lon").value.JString? ==> g.lon == toNumber(Prop(item, "lon").value.s)
    ensures Prop(item, "lon").None? || !(Prop(item, "lon").value.JNumber? || Prop(item, "lon").value.JString?) ==> g.lon == NaN
    ensures !item.JObject? ==> g == GeoResult("", "", NaN, NaN, None)
  {
    GeoResult(
      StringField(Prop(item, "name")),
      StringField(Prop(item, "country")),
      NumberField(Prop(item, "lat"), toNumber),
      NumberField(Prop(item, "lon"), toNumber),
      match Prop(item, "state") case Some(JString(s)) => Some(s) case _ => None)
  }

  /** The `filter` condition: non-empty name and country, coordinates not NaN. */
  predicate Usable(g: GeoResult)
  {
    g.name != "" && g.country != "" && g.lat.Num? && g.lon.Num?
  }

  /** The `map` over the body: `None` when an element is null and the callback throws. */
  function Parse(items: seq<Json>, toNumber: string -> JsNumber): (r: Option<seq<GeoResult>>)
    ensures r.Some? <==> forall i :: 0 <= i < |items| ==> items[i] != JNull
    ensures r.Some? ==> |r.value| == |items|
    ensures r.Some? ==> forall i :: 0 <= i < |items| ==> items[i] != JNull && r.value[i] == Normalize(items[i], toNumber)
    decreases |items|
  {
    if |items| == 0 then Some([])
    else if items[0] == JNull then None
    else
      match Parse(items[1..], toNumber)
      case None => None
      case Some(rest) => Some([Normalize(items[0], toNumber)] + rest)
  }

  /** The `filter`: the usable suggestions, in order. */
  function Keep(gs: seq<GeoResult>): (r: seq<GeoResult>)
    ensures |r| <= |gs|
    ensures forall k :: 0 <= k < |r| ==> Usable(r[k]) && r[k] in gs
    ensures forall i :: 0 <= i < |gs| && Usable(gs[i]) ==> gs[i] in r
    decreases |gs|
  {
    if |gs| == 0 then []
    else if Usable(gs[0]) then [gs[0]] + Keep(gs[1..])
    else Keep(gs[1..])
  }

  /** What one run of the debounced callback asks for and sets. */
  datatype SuggestionFetch = SuggestionFetch(request: Option<string>, suggestions: seq<GeoResult>)

  /** The callback for `text`; `reply` is the suggestion route's answer, used
      only if the request is made. A rejected fetch or body is logged and
      yields no suggestions. */
  function FetchSuggestions(text: string, reply: Reply, toNumber: string -> JsNumber): (f: SuggestionFetch)
    ensures f.request.None? <==> |text| < MinQueryLength
    ensures f.request.Some? ==> f.request.value == text
    ensures forall k :: 0 <= k < |f.suggestions| ==> Usable(f.suggestions[k])
    ensures f.suggestions != [] ==> f.request.Some? && reply.Received? && IsOk(reply.status) && reply.body.JArray?
    ensures f.request.Some? && reply.Received? && IsOk(reply.status) && reply.body.JArray? ==>
              f.suggestions == match Parse(reply.body.elems, toNumber)
                               case None => []
                               case Some(gs) => Keep(gs)
  {
    if |text| < MinQueryLength then SuggestionFetch(None, [])
    else
      var shown := match reply
        case Received(status, JArray(items)) =>
          if !IsOk(status) then []
          else (match Parse(items, toNumber) case None => [] case Some(gs) => Keep(gs))
        case _ => [];
      SuggestionFetch(Some(text), shown)
  }

  /** Filtering distributes over concatenation, so it keeps the order. */
  lemma {:induction false} KeepAppend(a: seq<GeoResult>, b: seq<GeoResult>)
    ensures Keep(a + b) == Keep(a) + Keep(b)
    decreases |a|
  {
    if |a| == 0 {
      assert a + b == b;
    } else {
      assert (a + b)[0] == a[0];
      assert (a + b)[1..] == a[1..] + b;
      KeepAppend(a[1..], b);
    }
  }

  /** Filtering keeps everything exactly when everything is usable. */
  lemma {:induction false} KeepAll(gs: seq<GeoResult>)
    ensures Keep(gs) == gs <==> forall i :: 0 <= i < |gs| ==> Usable(gs[i])
    decreases |gs|
  {
    if |gs| > 0 {
      KeepAll(gs[1..]);
      if !Usable(gs[0]) {
        assert |Keep(gs)| <= |gs[1..]| < |gs|;
      }
    }
  }

  // ---------------------------------------------------------------------
  // The search controller
  // ---------------------------------------------------------------------

  /** The component's state: the input text, the forecast shown, the loading
      flag, the error line and the suggestion list. */
  datatype SearchState = SearchState(city: string, data: Option<Json>, loading: bool, error: string, suggestions: seq<GeoResult>)

  /** The forecast request a search sends: by coordinates for a chosen
      suggestion, by name otherwise. */
  datatype ForecastRequest = ByCoords(lat: string, lon: string) | ByCity(name: string)

  /** The state right after the synchronous part of `handleSearch`, and the
      request it sends, if any. */
  datatype Submission = Submission(state: SearchState, request: Option<ForecastRequest>)

  /** A number in a template literal. */
  function NumberText(n: JsNumber, show: real -> string): string
  {
    match n
    case NaN => "NaN"
    case Num(v) => show(v)
  }

  /** `handleSearch(e, selected)` up to its first `await`. */
  function Submit(s: SearchState, selected: Option<GeoResult>, show: real -> string): (r: Submission)
    // An empty submit only sets the error: no request, everything else kept.
    ensures r.request.None? <==> selected.None? && Trim(s.city) == ""
    ensures r.request.None? ==>
              r.state.error == EmptyQueryMessage && r.state.data == s.data && r.state.loading == s.loading &&
              r.state.suggestions == s.suggestions && r.state.city == s.city
    // A started search clears the error and the suggestions and is loading; the data stays.
    ensures r.request.Some? ==>
              r.state.error == "" && r.state.loading && r.state.suggestions == [] &&
              r.state.data == s.data && r.state.city == s.city
    // It asks by the chosen suggestion's coordinates, else by the trimmed text.
    ensures selected.Some? ==>
              r.request == Some(ByCoords(NumberText(selected.value.lat, show), NumberText(selected.value.lon, show)))
    ensures selected.None? && r.request.Some? ==>
              r.request == Some(ByCity(Trim(s.city))) && r.request.value.name != ""
  {
    var name := if selected.Some? then selected.value.name else Trim(s.city);
    if name == "" && selected.None? then
      Submission(s.(error := EmptyQueryMessage), None)
    else
      var request :=
        if selected.Some? then ByCoords(NumberText(selected.value.lat, show), NumberText(selected.value.lon, show))
        else ByCity(name);
      Submission(s.(error := "", loading := true, suggestions := []), Some(request))
  }

  /** `json.key` where `json` may itself be null or undefined (`?.`). */
  function PropOf(p: Option<Json>, key: string): Option<Json>
  {
    match p
    case None => None
    case Some(v) => Prop(v, key)
  }

  /** The structural check: an object with a `city` and an array `list`. */
  predicate ValidShape(json: Json)
  {
    json.JObject? && "city" in json.fields && "list" in json.fields && json.fields["list"].JArray?
  }

  /** The message of the `Error` thrown for a non-ok reply. */
  function ReplyError(json: Json): (m: string)
    ensures StringMessage(json).Some? ==> m == StringMessage(json).value
    ensures StringMessage(json).None? ==> m == FetchFailedMessage
  {
    match StringMessage(json)
    case Some(msg) => msg
    case None => FetchFailedMessage
  }

  /** `json.city?.name` and `json.city?.country`. */
  function CityName(json: Json): Option<Json>
  {
    PropOf(Prop(json, "city"), "name")
  }

  function CityCountry(json: Json): Option<Json>
  {
    PropOf(Prop(json, "city"), "country")
  }

  /** The rewrite of the box text is attempted: both `name` and `country` are truthy. */
  predicate RewritesCity(json: Json)
  {
    Truthy(CityName(json)) && Truthy(CityCountry(json))
  }

  /** The attempted rewrite throws: `${cd.name}, ${cd.country}` meets a value
      that cannot be turned into text. */
  predicate RewriteThrows(json: Json)
  {
    RewritesCity(json) && !(Printable(CityName(json)) && Printable(CityCountry(json)))
  }

  /** The rest of `handleSearch`, applying the forecast reply to the state. */
  function Complete(s: SearchState, reply: Reply, show: real -> string): (r: SearchState)
    ensures !r.loading
    ensures r.suggestions == s.suggestions
    // Data is shown exactly for an ok reply of the right shape whose text rewrite does not throw, and then verbatim.
    ensures r.data.Some? <==>
              reply.Received? && IsOk(reply.status) && ValidShape(reply.body) && !RewriteThrows(reply.body)
    ensures r.data.Some? ==> r.data.value == reply.body && r.error == s.error
    // Each failure sets its message and clears the data.
    ensures reply.Received? && !IsOk(reply.status) ==> r.error == ReplyError(reply.body) && r.city == s.city
    ensures reply.Received? && IsOk(reply.status) && !ValidShape(reply.body) ==>
              r.error == InvalidResponseMessage && r.city == s.city
    ensures reply.Received? && IsOk(reply.status) && ValidShape(reply.body) && RewriteThrows(reply.body) ==>
              r.error == NoPrimitiveMessage && r.city == s.city
    ensures reply.Rejected? ==>
              r.error == (if reply.thrown.ErrorObject? then reply.thrown.message else UnknownFailure) && r.city == s.city
    // The text changes only on success, to "name, country" when both are truthy.
    ensures r.city != s.city ==> r.data.Some?
    ensures r.data.Some? && !RewritesCity(reply.body) ==> r.city == s.city
    ensures r.data.Some? && RewritesCity(reply.body) ==>
              r.city == Text(CityName(reply.body), show).value + ", " + Text(CityCountry(reply.body), show).value
  {
    match reply
    case Rejected(t) =>
      s.(error := if t.ErrorObject? then t.message else UnknownFailure, data := None, loading := false)
    case Received(status, json) =>
      if !IsOk(status) then s.(error := ReplyError(json), data := None, loading := false)
      else if !ValidShape(json) then s.(error := InvalidResponseMessage, data := None, loading := false)
      else if !RewritesCity(json) then s.(data := Some(json), loading := false)
      else
        // `setData(json)` has run; a throw in the template literal is caught and clears it again.
        match (Text(CityName(json), show), Text(CityCountry(json), show))
        case (Some(name), Some(country)) => s.(data := Some(json), loading := false, city := name + ", " + country)
        case _ => s.(error := NoPrimitiveMessage, data := None, loading := false)
  }

  /** The text a suggestion click puts in the box: `name[, state], country`. */
  function SuggestionLabel(g: GeoResult): (l: string)
    // The label starts with the name and ends with ", " and the country.
    ensures |l| >= |g.name| + 2 + |g.country| && l[..|g.name|] == g.name
    ensures l[|l| - |g.country| - 2..] == ", " + g.country
    // In between sits ", " and the state exactly when the state is a non-empty string, else nothing.
    ensures g.state.Some? && g.state.value != "" <==> |l| > |g.name| + 2 + |g.country|
    ensures |l| > |g.name| + 2 + |g.country| ==>
              g.state.Some? && l[|g.name|..|l| - |g.country| - 2] == ", " + g.state.value
  {
    g.name + (if g.state.Some? && g.state.value != "" then ", " + g.state.value else "") + ", " + g.country
  }

  /** The state part of a label: the state when it is a non-empty string, else "". */
  function StateText(g: GeoResult): string
  {
    if g.state.Some? then g.state.value else ""
  }

  /** For places of the same name and country, the label tells their states
      apart exactly when the states differ as text (a missing state and an
      empty one look the same). */
  lemma {:induction false} LabelShowsState(g: GeoResult, h: GeoResult)
    requires g.name == h.name && g.country == h.country
    ensures SuggestionLabel(g) == SuggestionLabel(h) <==> StateText(g) == StateText(h)
  {
    var l, m := SuggestionLabel(g), SuggestionLabel(h);
    if l == m && StateText(g) != "" {
      assert l[|g.name|..|l| - |g.country| - 2] == ", " + StateText(g);
      assert (", " + StateText(g))[2..] == StateText(g);
      assert (", " + StateText(h))[2..] == StateText(h);
    }
    if l == m && StateText(h) != "" {
      assert m[|h.name|..|m| - |h.country| - 2] == ", " + StateText(h);
      assert (", " + StateText(g))[2..] == StateText(g);
      assert (", " + StateText(h))[2..] == StateText(h);
    }
  }

  /** `handleSuggestionClick(g)`: set the label, then search by the suggestion. */
  function Click(s: SearchState, g: GeoResult, show: real -> string): (r: Submission)
    ensures r.request == Some(ByCoords(NumberText(g.lat, show), NumberText(g.lon, show)))
    ensures r.state.city == SuggestionLabel(g) && r.state.loading && r.state.error == "" && r.state.suggestions == []
  {
    Submit(s.(city := SuggestionLabel(g)), Some(g), show)
  }

  /** Every submit clears a previous error before anything else, so a started
      search never shows a stale error while loading. */
  lemma {:induction false} StartedSearchIsClean(s: SearchState, selected: Option<GeoResult>, show: real -> string)
    requires Submit(s, selected, show).request.Some?
    ensures var t := Submit(s, selected, show).state; t.loading && t.error == ""
  {
  }

  /** A search reaching the server either shows data with no error or clears
      the data and shows the failure's message; that message is empty only
      when the failure itself carried an empty message. */
  lemma {:induction false} SearchOutcome(s: SearchState, selected: Option<GeoResult>, reply: Reply, show: real -> string)
    requires Submit(s, selected, show).request.Some?
    ensures var r := Complete(Submit(s, selected, show).state, reply, show);
      && !r.loading
      && (r.data.Some? ==> r.error == "")
      && (r.data.None? && r.error == "" ==>
            (reply.Received? && StringMessage(reply.body) == Some("")) ||
            (reply.Rejected? && reply.thrown == ErrorObject("")))
  {
  }

  /** An empty submit keeps the forecast already on screen, next to the error. */
  lemma {:induction false} EmptySubmitKeepsData(s: SearchState, show: real -> string)
    requires Trim(s.city) == ""
    ensures Submit(s, None, show).state == s.(error := EmptyQueryMessage)
  {
  }
}
